=== FILE: README.md ===
# KuDoS CLI booking logic in Dafny

`kudos.py` is a console client for KuDoS, a university scheduling service
for supervisions (small-group teaching). It runs these steps:

- It asks the service for the student's supervision groups.
- It keeps the groups of the student's tripos (degree programme) that still
  have capacity or an upcoming booking.
- It lets the student pick a course and a slot.
- It sets up a working directory for that slot. The directory holds a copy
  of a LaTeX template and an *info file* of `\newcommand` declarations that
  describe the slot. When the directory already exists, the program instead
  refreshes its info file, compiles `work.tex` and uploads the PDF.
- A second view lists the submissions of the last four weeks, oldest first.

This project models that decision logic as pure Dafny functions and proves
properties of it. The network, the compiler, the regular expression that
finds the upload key, the clock and the console are parameters. The
directory tree is a map from paths to nodes.

Modules, in dependency order:

- `Wrappers`: `Option` and `Result`.
- `Text`: cutting strings at the first or last occurrence of a character.
- `Decimal`: decimal rendering of integers, as an f-string does it, and a
  reader for it.
- `Seqs`: the order-preserving filter of a list comprehension, and a stable
  sort by key (Python's `sorted`), with their laws.
- `DateTime`: `parse_datetime`. Instants are integers counting microseconds.
  What `datetime.fromisoformat` made of a string is an input.
- `Records`: the JSON records the service returns.
- `Eligibility`: `filter_supervisions`.
- `Availability`: `calculate_available_slots`.
- `Courses`: `get_unique_courses`. The set of triples is modelled as a
  strictly ascending sequence.
- `Selector`: `select_supervision_slot`: the two prompt loops, and the
  booking step the slot loop runs. The console is the sequence of typed
  lines; what `int()` makes of a line is the oracle `readInt`, where `None`
  is a line it rejects.
- `InfoFile`: the info-file format, the synthetic info file, the info-file
  address, and a reader for both. The reader proves what they declare.
- `FileSystem`: the directory tree, `os.makedirs`, and the slot directory
  name.
- `BookingStep`: `find_student_by_crsid`, `process_infofile`,
  `compile_latex`, `upload_pdf`, `create_synthetic_info`,
  `fetch_remote_info` and `fetch_booking`.
- `BookingFacts`: what the booking step guarantees about the tree.
- `Recent`: `filter_recent_supervisions` and the sort of
  `display_supervisions`.
- `Scenarios`: small worked examples.

Behaviour of the code that the model keeps as written:

- An unparseable start time becomes `datetime.max` read as UTC. An aware
  time on the last day of year 9999 with a negative offset is later than
  that sentinel, so the fallback is not "later than any date". See
  `DateTime.SentinelExceededWest`.
- A group can pass the filter and still offer no slot: for example, no
  bookings and between 1 and 59 allocated minutes. The slot prompt then accepts
  no answer. See `Availability.EligibleWithoutSlots`.
- The group booked for a course is the first group with an entry of that
  course *name*. The subject and tripos of the chosen triple play no part.
  See `Selector.CourseNameDecides`.
- The directory is named after the course of the group's *first* entry.
  That need not be the course the student picked.
- `fetch_booking` runs inside the slot loop's `try`. When the configured
  user is not a supervisee of the group, it raises a `ValueError`, which the
  loop catches like an unreadable number: it prints "Please enter valid
  numbers." and asks for a slot again. Every later slot is refused the same
  way, so that user's dialogue lasts until the console ends. See
  `Selector.NonSuperviseeNeverBooks` and `Scenarios.EndToEndNonSupervisee`.
- The compile-and-upload question reads the line after the accepted slot
  answer. When the console has ended there, the `EOFError` escapes the
  booking step.
- `os.makedirs` runs before the template is looked for. A missing template
  therefore raises only after the slot directory was created, and the empty
  directory stays behind. A later run finds it and goes to the
  compile-and-upload question. See `BookingFacts.MissingTemplateLeavesEmptyDir`.
- Only a status of 200 counts as success when the info file is refreshed
  and when the PDF is uploaded. A new directory's info file is also fetched
  on informational and redirect statuses, because only 4xx and 5xx raise
  there.

## Model

| member | source | states |
|---|---|---|
| DateTime.ParseDateTime | kudos.py:91-106 | a naive reading is its own UTC instant; an aware one, shifted back by its offset, gives the wall-clock reading; a parse failure gives the sentinel `datetime.max` as UTC |
| DateTime.NaiveIsUtc | kudos.py:99-101 | a time without an offset denotes the same instant as the same time at offset zero |
| DateTime.SentinelBoundsUtcAndEast | kudos.py:103-106 | the fallback is not earlier than any instant parsed without an offset or with a non-negative one |
| DateTime.InstantRange | kudos.py:96-106 | every normalised instant lies within a day of Python's datetime range |
| DateTime.SentinelExceededWest | kudos.py:106 | a concrete aware time with a negative offset is later than the fallback |
| Eligibility.AnyInTripos | kudos.py:120-125 | true exactly when some entry of the group list has the target tripos |
| Eligibility.TotalDuration | kudos.py:129 | no bookings sum to 0, and when no duration is negative no single booking exceeds the sum; `Eligibility.TotalDurationAppend` states how it adds up |
| Eligibility.TotalDurationAppend | kudos.py:129 | the booked minutes of two runs of bookings add up |
| Eligibility.AnyStartsAfter | kudos.py:141-144 | true exactly when some booking's normalised start is strictly after the clock reading |
| Eligibility.CheckBookingCriteria | kudos.py:127-146 | spare capacity qualifies; capacity used exactly qualifies if and only if a booking is still to come; over-booking never qualifies |
| Eligibility.FilterSupervisions | kudos.py:148-154 | the result is a subsequence of the input; a group is in it if and only if it was in the input, has an entry of the tripos and passes the booking criteria; each kept group keeps its multiplicity |
| Eligibility.MalformedStartKeepsFullGroup | kudos.py:137-144 | a fully booked group with an unparseable start is kept while the clock is before the sentinel |
| Eligibility.FullGroupInThePastDropped | kudos.py:137-146 | a fully booked group whose bookings have all started is dropped |
| Eligibility.EligibleNotOverbooked | kudos.py:132-146 | a kept group never has more minutes booked than allocated |
| Availability.AvailableSlots | kudos.py:381-390 | the slots beyond the bookings are the floor of the unbooked minutes over 60, for negative remainders as well |
| Availability.RealSlotsOffered | kudos.py:383-390 | a group that is not over-booked offers at least one slot per booking |
| Availability.LeftoverAddsNoSlot | kudos.py:387-390 | fewer than 60 unbooked minutes add no slot |
| Availability.EligibleOffersRealSlots | kudos.py:381-390 | every kept group offers all its real bookings |
| Availability.EligibleWithoutSlots | kudos.py:381-390 | a group of the tripos with no bookings and more than 0 but under 60 allocated minutes is kept but offers no slot |
| Availability.HourBookingKeepsSlots | kudos.py:381-390 | adding one hour-long booking leaves the number of slots unchanged |
| Courses.StrLessIrreflexive | kudos.py:379 | no string sorts before itself |
| Courses.StrLessTransitive | kudos.py:379 | the string order used by `sorted` is transitive |
| Courses.StrLessTotal | kudos.py:379 | of two different strings one sorts before the other |
| Courses.KeyLessIrreflexive | kudos.py:379 | no course triple sorts before itself |
| Courses.KeyLessTransitive | kudos.py:379 | the lexicographic order on (course, subject, tripos) is transitive |
| Courses.KeyLessTotal | kudos.py:379 | of two different triples one sorts before the other |
| Courses.InsertKey | kudos.py:378 | adding a triple keeps the sequence strictly ascending, and its elements are the old ones plus the triple |
| Courses.InsertEntries | kudos.py:377-378 | adding a group's entries keeps the sequence ascending and adds exactly their triples |
| Courses.InsertGroups | kudos.py:375-378 | adding every group's entries yields exactly the triples some entry carries |
| Courses.UniqueCourses | kudos.py:373-379 | the courses are strictly ascending and without duplicates, and a triple is listed if and only if some entry of some group carries it |
| Courses.AscendingUnique | kudos.py:379 | two strictly ascending sequences with the same elements are equal, so the list is the one `sorted(set(...))` builds |
| Selector.CourseChoice | kudos.py:405-414 | answer n picks course n for 1 <= n <= the number of courses; the number after the last course views marked work; any other answer or an unreadable line asks again |
| Selector.AnyOfCourse | kudos.py:419 | true exactly when some entry of the group has that course name |
| Selector.CourseSupervisions | kudos.py:417-420 | a subsequence of the groups, holding exactly the groups with an entry of the course name |
| Selector.ListedCourseHasGroup | kudos.py:417-446 | for every listed course the list of its groups is not empty, so `course_supervisions[0]` exists |
| Selector.SelectedGroup | kudos.py:446 | the booked group is one of the groups and has an entry of the course name |
| Selector.SelectedGroupIsFirst | kudos.py:417-446 | the booked group is the first group of the input with an entry of the course name |
| Selector.CourseNameDecides | kudos.py:419 | two listed triples with the same course name book with the same group |
| Selector.SlotChoice | kudos.py:447-452 | answer n picks slot n-1 when 1 <= n <= the number of available slots; the slot is synthetic exactly when it lies past the real bookings |
| Selector.SlotStage | kudos.py:443-461 | the booking step runs exactly when the user is a supervisee of the group and some later line is an accepted slot answer; it then books the chosen course and group, a slot within the available ones, synthetic exactly when past the bookings, and never ends refused for a missing student |
| Selector.SlotStageBooks | kudos.py:443-456 | for a supervisee, the first accepted slot answer is handed to the booking step, which reads the next line as its answer |
| Selector.SlotStageEnds | kudos.py:443-461 | with no accepted slot answer, or for a user who is not a supervisee, the slot prompt lasts until the console ends |
| Selector.Select | kudos.py:392-462 | the booking step runs on a slot of a listed course, with that course's first group, within the group's available slots, synthetic exactly when it lies past the bookings, for a supervisee of the group, and never ends refused for a missing student or group entry; viewing marked work needs the answer one past the last course; either outcome is decided by the first accepted course answer |
| Selector.NonSuperviseeNeverBooks | kudos.py:443-461 | when the first accepted course answer leads to a group the user is not a supervisee of, the dialogue ends only with the console |
| Selector.SupervisorProgress | kudos.py:392-462 | conversely, after the first accepted course answer, a supervisee of that course's group is booked on the first accepted slot answer, the booking step reading the line after it |
| Selector.SelectPicksCourse | kudos.py:405-419 | once the first accepted course answer picks a course, the dialogue is the slot prompt of that course's first group from the next line on |
| Selector.CoursePrompt | kudos.py:405-414 | the loop stops at the first accepted answer, or at the end of input when none is accepted |
| Selector.SlotPrompt | kudos.py:443-461 | the loop hands each accepted slot answer to the booking step, asks again after a refusal for a missing student, and ends with anything else the step does; it gives exactly what `SlotStage` specifies |
| Selector.SelectSupervisionSlot | kudos.py:392-462 | the two prompt loops, with the booking step in the second, give exactly the outcome `Select` specifies |
| InfoFile.ParseRenderLine | kudos.py:327-339 | a declaration whose name has no closing brace and whose parts have no newline reads back as itself |
| InfoFile.ParseRender | kudos.py:327-340 | a document of such lines, each ended by a newline, reads back as its lines |
| InfoFile.UrlRoundTrip | kudos.py:324 | an info-file address gives back its supervisor identifier, group number and slot number |
| InfoFile.InfofileUrlNoNewline | kudos.py:324 | the address holds a newline only if the supervisor identifier does |
| InfoFile.SyntheticLinesWellFormed | kudos.py:327-339 | every line of the synthetic info file is a well-formed declaration or a blank line |
| InfoFile.SyntheticReadsBack | kudos.py:326-340 | when the course, the names and the identifiers contain no newline, the synthetic info file reads back as its thirteen lines |
| InfoFile.InfofileUrl | kudos.py:324 | the address is the info-file base and the supervisor's identifier, followed by the group and slot parts |
| InfoFile.SyntheticLines | kudos.py:326-340 | the synthetic info file declares, in this order, the course, slot number, venue, date, time and upload key, a blank line, the supervisor and two layout options, a blank line, and the student's name and identifier |
| InfoFile.SyntheticInfo | kudos.py:326-340 | when the course, the names and the identifiers contain no newline, the text written reads back as the thirteen synthetic lines; the macro values are in `InfoFile.SyntheticDeclarations` |
| InfoFile.SlotLookups | kudos.py:327-332 | the slot lines declare the course of the first entry, the slot number, an empty venue and the slot's address as upload key |
| InfoFile.PeopleLookups | kudos.py:334-339 | the remaining lines declare the supervisor's full name, the student's full name and the student's identifier |
| InfoFile.SyntheticDeclarations | kudos.py:307-340 | when the course, the names and the identifiers contain no newline, the synthetic info file, read back, gives every one of those seven macros its value |
| InfoFile.SyntheticSlotNumberReadsBack | kudos.py:328 | the declared slot number parses back to the slot number written |
| FileSystem.MakeDirs | kudos.py:294 | fails exactly when the directory or a directory above it exists as a file; otherwise adds exactly the missing directories and changes nothing that existed |
| FileSystem.JoinParents | kudos.py:296-300 | the directories above a file of a directory are that directory and the ones above it |
| FileSystem.ParentsOfParent | kudos.py:294 | the directories above a directory above a path are above the path |
| FileSystem.MakeDirsConsistent | kudos.py:294 | creating directories keeps every ancestor of every path an existing directory |
| FileSystem.WriteFileConsistent | kudos.py:343-345 | writing a file into an existing directory keeps the tree consistent |
| FileSystem.DirName | kudos.py:280-283 | the name starts with the course name followed by an underscore; `FileSystem.DirNameRoundTrip` reads it back |
| FileSystem.DirNameRoundTrip | kudos.py:280-283 | a slot directory name gives back its course and zero-based slot index, even when the course name holds underscores |
| FileSystem.DirNameInjective | kudos.py:283 | two slots share a directory only if they are the same slot of the same course name |
| FileSystem.SlotPathsDistinct | kudos.py:176-177 | `work.tex`, `infofile.tex`, `work.pdf` and the directory itself are four distinct paths |
| BookingStep.FindStudent | kudos.py:251-259 | no result exactly when no supervisee has the identifier; otherwise the user of the first supervisee that has it |
| BookingStep.ProcessInfofile | kudos.py:179-210 | passes exactly when the info file exists and has no upload key or the download replies 200; throws exactly when the download gets no reply; changes nothing but the info file, and changes it only to the downloaded body |
| BookingStep.CompileLatex | kudos.py:212-229 | passes exactly when `work.tex` exists and the build succeeds, and then writes the PDF beside it; otherwise the tree is unchanged |
| BookingStep.UploadPdf | kudos.py:231-249 | passes exactly when the PDF exists and the service replies 200 to its upload; throws, as a connection failure, exactly when there is no reply |
| BookingStep.CreateSyntheticInfo | kudos.py:342-345 | only the info file of the directory is created or replaced, and it holds the synthetic document |
| BookingStep.FetchRemoteInfo | kudos.py:349-371 | the request goes to the slot's info-file address; the fetch counts as done exactly when a reply came without a 4xx or 5xx status, and then writes the body; otherwise the tree is unchanged |
| BookingStep.SetUpSlot | kudos.py:294-305 | nothing is deleted; except for a failure to create it, the slot directory exists afterwards; it ends initialised, or raises only a failure to create the directory or a missing or directory template |
| BookingStep.Pipeline | kudos.py:287-292 | the pipeline reports how far it got, or raises a connection failure or a missing compiler; it declines exactly on an answer other than `y`; it deletes nothing and writes only the info file and the PDF; a refresh that did not pass leaves the tree as it was and stops there; compiling needs `y` and a passed refresh, and uploading also a passed build |
| BookingStep.FetchBooking | kudos.py:261-305 | refuses exactly when the user is not a supervisee; fails for a missing group entry exactly when the user is one and the group has none; for a supervisee with an existing directory, raises on the unchanged tree when no answer line is left and is otherwise exactly the pipeline on the unchanged tree, so nothing is created or copied there; for a supervisee with no directory, is exactly the set-up; deletes nothing. More in the `BookingFacts` lemmas |
| BookingFacts.SlotDirIsNotTemplate | kudos.py:283-296 | a slot directory name is never the template's path |
| BookingFacts.FreshSlotFile | kudos.py:294-300 | in a consistent tree, nothing exists inside a missing directory |
| BookingFacts.StudentMissingChangesNothing | kudos.py:274-277 | a user who is not a supervisee gets an error and the tree is untouched |
| BookingFacts.DeclinedChangesNothing | kudos.py:288 | any answer other than `y` leaves the tree as it was |
| BookingFacts.UploadedMeansAccepted | kudos.py:288-291 | an upload is reported only after `y`, an existing info file, a build of `work.tex` into the PDF on disk, and a 200 reply to that PDF |
| BookingFacts.MissingInfofileStopsEarly | kudos.py:184-186 | without an info file the pipeline stops before compiling and changes nothing |
| BookingFacts.SetUpSlotConfined | kudos.py:294-305 | setting a slot up changes only the slot directory, its three files and missing directories above it |
| BookingFacts.FetchBookingConfined | kudos.py:261-305 | the whole step deletes nothing and changes only the slot directory, its three files and missing directories above it |
| BookingFacts.ExistingWorkPreserved | kudos.py:287-292 | in an existing directory, `work.tex` is never overwritten |
| BookingFacts.MissingTemplateLeavesEmptyDir | kudos.py:294-298 | with no template, the step raises after making the slot directory, which stays behind without `work.tex` or an info file |
| BookingFacts.MadeForSlot | kudos.py:294-300 | with nothing in the way, creating the slot directory succeeds, keeps the template and leaves the directory empty |
| BookingFacts.SyntheticSetUp | kudos.py:300-303 | a new synthetic slot gets the template as `work.tex` and the synthetic info file |
| BookingFacts.RemoteSetUp | kudos.py:300-305 | a new booked slot gets the template as `work.tex`; its info file is the fetched body, or is absent when the fetch failed |
| BookingFacts.SetUpSlotResult | kudos.py:294-305 | in a consistent tree, when the template is a file and no file stands in the way of the slot directory, a new slot directory ends initialised, with the template as `work.tex` and the info file its branch promises |
| BookingFacts.NewDirectorySetUp | kudos.py:261-305 | in a consistent tree, when the template is a file and no file stands in the way, the step of a supervisee with no slot directory yet is exactly the set-up and ends initialised |
| BookingFacts.InitialisedMeansSetUp | kudos.py:287-305 | a step that ended initialised found a supervisee, a group entry and no slot directory, and ran the set-up |
| BookingFacts.SecondRunResumes | kudos.py:287-292 | running the step again on the tree a first run set up goes straight to the compile-and-upload prompt |
| BookingFacts.SetUpBranchesAgree | kudos.py:302-305 | if the synthetic branch initialises a slot, the remote branch initialises it too and requests the slot's address |
| BookingFacts.BranchesAgree | kudos.py:302-305 | the same for the whole step |
| BookingFacts.SyntheticMatchesRemote | kudos.py:307-356 | when the course, the names and the identifiers contain no newline, the synthetic info file's upload key is the address the remote branch requests, and it declares the one-based slot number |
| BookingFacts.ProcessInfofileConsistent | kudos.py:205-207 | refreshing the info file keeps the tree consistent |
| BookingFacts.CompileLatexConsistent | kudos.py:219-226 | compiling keeps the tree consistent unless the PDF path is a directory |
| BookingFacts.PipelineConsistent | kudos.py:287-292 | the pipeline keeps the tree consistent unless the PDF path is a directory |
| BookingFacts.SetUpSlotConsistent | kudos.py:294-305 | setting a slot up keeps the tree consistent |
| BookingFacts.FetchBookingConsistent | kudos.py:261-305 | the whole step keeps the tree consistent unless the PDF path is a directory |
| Seqs.Any | kudos.py:122-125 | Python's `any` over a sequence is true exactly when some element satisfies the condition |
| Seqs.Filter | kudos.py:148-152 | a list comprehension's result is a subsequence, holds exactly the kept elements, and keeps each one's multiplicity |
| Seqs.FirstIndex | kudos.py:405-414 | the position of the first element satisfying the condition, or none when no element does |
| Seqs.FilterHead | kudos.py:446 | the first kept element is the first element that satisfies the condition |
| Seqs.SortByKey | kudos.py:491-494 | the result is sorted by the key and as long as the input; `Seqs.SortByKeyPermutes` and `Seqs.SortByKeyStable` state the rest |
| Seqs.SortByKeyPermutes | kudos.py:491-494 | sorting by key is a permutation |
| Seqs.SortByKeyStable | kudos.py:491-494 | elements with equal keys keep their order |
| Seqs.SortedStableUnique | kudos.py:491-494 | two sorted sequences with the same elements of each key, in the same order, are equal |
| Decimal.IntRoundTrip | kudos.py:283 | the decimal form of an integer reads back as that integer |
| Decimal.IntToStringInjective | kudos.py:283 | different integers have different decimal forms |
| Recent.FilterRecent | kudos.py:480-486 | a subsequence holding exactly the submissions that started strictly after four weeks before the clock reading, each as often as before |
| Recent.SortByStart | kudos.py:491-494 | the listing is ordered by normalised start and has as many entries as the input |
| Recent.SortByStartPermutes | kudos.py:491-494 | the listing holds the same submissions, each as often as before |
| Recent.SortByStartStable | kudos.py:491-494 | submissions with the same start keep their order |
| Recent.SortByStartIsSorted | kudos.py:491-494 | any ordered listing that keeps same-start submissions in order is this one, as with Python's stable `sorted` |
| Recent.MalformedIsRecent | kudos.py:480-486 | a submission whose start cannot be parsed is always listed |
| Recent.WindowIsOpen | kudos.py:482-485 | a submission that started exactly four weeks ago is not listed |
| Recent.MalformedListedLate | kudos.py:491-494 | after an unparseable start come only starts at or after the sentinel, and among UTC or eastern offsets only the sentinel itself |
| Recent.RecentListing | kudos.py:480-494 | the recent view is ordered by start |
| Recent.RecentListingContents | kudos.py:480-494 | the recent view holds exactly the recent submissions, each as often as returned |
| Scenarios.CapacityLeftIncluded | kudos.py:132-134 | a group with 120 of 180 minutes unbooked is kept |
| Scenarios.FullGroups | kudos.py:136-144 | a full group with only past bookings is dropped; with one future booking it is kept |
| Scenarios.OtherTriposDropped | kudos.py:120-125 | a group of another tripos is dropped |
| Scenarios.SlotCounts | kudos.py:381-390 | 2 bookings of 60 minutes out of 180 give 3 slots; 1 booking of 60 minutes out of 100 gives 1 slot |
| Scenarios.EndToEndEligible | kudos.py:127-154 | a single-entry group of 120 minutes with one future hour-long booking is kept and offers 2 slots |
| Scenarios.SingleGroupCourse | kudos.py:373-379 | that group alone lists its one course, which books with it |
| Scenarios.EndToEndSelection | kudos.py:443-456 | for that group alone, a supervisee answering 1 and then 2 has the booking step run on its synthetic second slot, with no line left for its question |
| Scenarios.EndToEndNonSupervisee | kudos.py:443-461 | for that group, a user who is not a supervisee answering 1, 1, 1 has every slot refused, and the dialogue ends with the console |
| Scenarios.EndToEndSynthetic | kudos.py:302-332 | setting that slot up writes an info file whose upload key is the slot-2 address and whose slot number is 2 |

## Left out

- Logging in through a browser, `load_config` and `config.json`: the
  identifier and the authentication cookie are a `Config` parameter.
- HTTP: each request is an oracle `get` or `post` that returns a status and
  a body, or no reply. Headers, cookies and encodings are not modelled.
  `fetch_supervisions` and the two requests in `main` are left out, as is
  parsing their JSON. The records are the input.
- The regular expression of `process_infofile`: it is the oracle
  `uploadKeyOf` of `Services`.
- Running `tectonic`: it is the oracle `compile`. It either builds a PDF,
  fails, or cannot be started. A build is assumed to write only `work.pdf`.
- `datetime.fromisoformat` and the ISO-8601 grammar: what it made of a
  string is the input `IsoParse`. `parse_date` (532-534) is not used by the
  modelled code.
- The clock: `now` is a parameter. The source reads the clock once per
  group in `check_booking_criteria`; the model uses one reading for the
  whole filter.
- Console output and the listing's formatting. The warning that
  `parse_datetime` prints is dropped.
- `int()` on typed lines: what it made of a line is the oracle `readInt`.
  The end of input at a prompt of the two loops, which raises `EOFError` in
  the source, ends the dialogue as `InputEnded`.
- Other `ValueError`s inside the slot loop's `try`: `load_config` reading a
  malformed `config.json`, and request errors that are also `ValueError`s
  (such as an invalid URL). The configuration is a parameter, and every
  request error is modelled as a connection failure that escapes.
- `select_supervision` (511-521), `open_url`, `main` and `main2`: they are
  console and browser glue around the modelled operations.
- Paths are plain strings joined with `/`. `os.path` normalisation, absolute
  paths, links and permissions are not modelled, nor are I/O errors other
  than a file standing where a directory is needed and a missing or
  directory template.
- The difference between writing bytes (`response.content`) and text
  (`response.text`): bodies are strings.
- BookingFacts.FetchBookingConsistent: assumes the compiler does not write
  `work.pdf` over an existing directory, because what `tectonic` does then
  is not modelled.

=== FILE: availability.dfy ===
/** The availability calculator: how many slots a group offers, counting its
    real bookings and the hour-long slots its unbooked minutes would fill. */
module Availability {
  import opened Records
  import opened Eligibility

  /** The length of a synthesised slot, in minutes. */
  const SlotMinutes: int := 60

  /** `calculate_available_slots`. Python's `//` floors, and so does Dafny's
      `/` for a positive divisor, negative dividends included. */
  function AvailableSlots(g: SupervisionGroup): (r: int)
    ensures var remaining := g.minutesAllocated - TotalDuration(g.bookings);
            var extra := r - |g.bookings|;
            extra * SlotMinutes <= remaining < (extra + 1) * SlotMinutes
  {
    |g.bookings| + (g.minutesAllocated - TotalDuration(g.bookings)) / SlotMinutes
  }

  /** Real bookings are always offered while the group is not over-booked. */
  lemma RealSlotsOffered(g: SupervisionGroup)
    requires TotalDuration(g.bookings) <= g.minutesAllocated
    ensures AvailableSlots(g) >= |g.bookings|
  {
  }

  /** Fewer than sixty unbooked minutes add no slot. */
  lemma LeftoverAddsNoSlot(g: SupervisionGroup)
    requires 0 <= g.minutesAllocated - TotalDuration(g.bookings) < SlotMinutes
    ensures AvailableSlots(g) == |g.bookings|
  {
  }

  /** Every eligible group offers at least its real bookings. */
  lemma EligibleOffersRealSlots(g: SupervisionGroup, tripos: string, now: int)
    requires Eligible(g, tripos, now)
    ensures AvailableSlots(g) >= |g.bookings|
  {
    EligibleNotOverbooked(g, tripos, now);
  }

  /** Eligibility does not imply a selectable slot: a group with unbooked
      minutes, but fewer than sixty and no bookings, passes the filter and
      offers no slot, so the slot prompt can accept no answer. */
  lemma EligibleWithoutSlots(g: SupervisionGroup, tripos: string, now: int)
    requires g.bookings == [] && 0 < g.minutesAllocated < SlotMinutes
    requires exists i :: 0 <= i < |g.group| && g.group[i].tripos == tripos
    ensures Eligible(g, tripos, now)
    ensures AvailableSlots(g) == 0
  {
  }

  /** Turning one synthetic slot into an hour-long booking leaves the number
      of slots offered unchanged: the booking takes the place of the slot. */
  lemma HourBookingKeepsSlots(g: SupervisionGroup, b: Booking)
    requires b.duration == SlotMinutes
    ensures AvailableSlots(g.(bookings := g.bookings + [b])) == AvailableSlots(g)
  {
    TotalDurationAppend(g.bookings, [b]);
    assert TotalDuration([b]) == b.duration by {
      assert [b][1..] == [];
    }
  }
}

=== FILE: booking.dfy ===
/** The booking step: given the chosen group and slot, set up the slot's
    working directory, or, when it already exists, refresh its info file,
    compile the work and upload the PDF. Network, compiler and console are
    parameters: `Services` answers for them. */
module BookingStep {
  import opened Wrappers
  import opened Records
  import opened FileSystem
  import InfoFile

  /** What an HTTP request gave: a response with its status and body, or no
      response at all (connection refused, name not resolved, ...). */
  datatype Http = Reply(status: int, body: string) | NoConnection

  /** What running `tectonic work.tex` in a directory gave. */
  datatype Compilation = Built(pdf: string) | BuildFailed | CompilerMissing

  /** The outside world as the booking step sees it. `uploadKeyOf` is the
      search for the upload key declaration in an info file's text; `get`
      and `post` send a request with the given authentication cookie;
      `compile` runs the compiler on the working directory. */
  datatype Services = Services(
    uploadKeyOf: string -> Option<string>,
    get: (string, string) -> Http,
    post: (string, string, string) -> Http,
    compile: (Fs, string) -> Compilation)

  /** The fields of the configuration file the step reads. */
  datatype Config = Config(crsid: string, auth: string)

  /** Where the PDF is uploaded to. */
  const UploadUrl: string := InfoFile.RestRoot + "/supervisions/upload"

  /** Exceptions that escape the step. */
  datatype Failure =
    | StudentNotFound    // the configured user is not among the supervisees
    | NoGroupEntry       // the group has an empty `group` list
    | CannotCreateDirectory  // a file stands where a directory is needed
    | TemplateMissing    // `template/perSV_mywork.tex` does not exist
    | TemplateNotAFile   // it exists but is a directory
    | ConnectionFailed   // a request outside a handler got no response
    | CompilerNotFound   // the compiler could not be started
    | InputClosed        // the console ended before the compile-and-upload question was answered

  /** How far the compile-and-upload pipeline got in an existing directory. */
  datatype Stage = Declined | InfofileFailed | CompileFailed | UploadFailed | Uploaded

  /** Where the info file of a new working directory came from. */
  datatype InfoSource =
    | Synthesised
    | Fetched(url: string)
    | FetchFailed(url: string)

  datatype Status = Resumed(stage: Stage) | Initialised(source: InfoSource) | Raised(failure: Failure)

  /** The directory tree after the step, and how the step ended. */
  datatype Outcome = Outcome(fs: Fs, status: Status)

  /** The result of one pipeline stage: the tree after it, and whether it
      reported success, failure or threw. */
  datatype Verdict = Passed | Stopped | Threw(failure: Failure)
  datatype Step = Step(fs: Fs, verdict: Verdict)

  // ---------------------------------------------------------------------
  // Finding the student

  predicate IsStudent(s: Supervisee, crsid: string) {
    s.user.crsid == crsid
  }

  /** The first supervisee whose identifier is `crsid`, if there is one. */
  function FindStudent(supervisees: seq<Supervisee>, crsid: string): (r: Option<Person>)
    ensures r.None? <==> forall i :: 0 <= i < |supervisees| ==> !IsStudent(supervisees[i], crsid)
    ensures r.Some? ==> exists i :: (0 <= i < |supervisees|
      && supervisees[i].user == r.value && IsStudent(supervisees[i], crsid)
      && forall j :: 0 <= j < i ==> !IsStudent(supervisees[j], crsid))
    decreases |supervisees|
  {
    if supervisees == [] then None
    else if IsStudent(supervisees[0], crsid) then Some(supervisees[0].user)
    else
      var r := FindStudent(supervisees[1..], crsid);
      assert r.Some? ==> exists i :: (1 <= i < |supervisees|
        && supervisees[i].user == r.value && IsStudent(supervisees[i], crsid)
        && forall j :: 1 <= j < i ==> !IsStudent(supervisees[j], crsid))
      by {
        if r.Some? {
          var i :| 0 <= i < |supervisees[1..]|
            && supervisees[1..][i].user == r.value && IsStudent(supervisees[1..][i], crsid)
            && forall j :: 0 <= j < i ==> !IsStudent(supervisees[1..][j], crsid);
          assert forall j :: 1 <= j < i + 1 ==> supervisees[j] == supervisees[1..][j - 1];
        }
      }
      r
  }

  // ---------------------------------------------------------------------
  // The pipeline run in an existing working directory

  /** Replaces the info file with the version the upload key points at. A
      missing info file stops the pipeline; an info file without an upload
      key is kept as it is; a reply other than 200 stops the pipeline; no
      reply at all is an exception. */
  function ProcessInfofile(fs: Fs, dir: string, cfg: Config, svc: Services): (r: Step)
    ensures var path := Join(dir, InfoFileName);
      && (r.verdict == Passed <==>
            (IsFile(fs, path)
             && (svc.uploadKeyOf(fs[path].content).None?
                 || Accepted(svc.get(svc.uploadKeyOf(fs[path].content).value, cfg.auth)))))
      && (r.verdict.Threw? <==>
            (IsFile(fs, path) && svc.uploadKeyOf(fs[path].content).Some?
             && svc.get(svc.uploadKeyOf(fs[path].content).value, cfg.auth).NoConnection?))
    ensures r.fs.Keys == fs.Keys
    ensures forall p :: p in fs && p != Join(dir, InfoFileName) ==> r.fs[p] == fs[p]
    ensures r.fs != fs ==>
      (r.verdict == Passed && IsFile(fs, Join(dir, InfoFileName))
       && svc.uploadKeyOf(fs[Join(dir, InfoFileName)].content).Some?
       && r.fs[Join(dir, InfoFileName)]
          == File(svc.get(svc.uploadKeyOf(fs[Join(dir, InfoFileName)].content).value, cfg.auth).body))
  {
    var path := Join(dir, InfoFileName);
    if !IsFile(fs, path) then Step(fs, Stopped)
    else match svc.uploadKeyOf(fs[path].content)
      case None => Step(fs, Passed)
      case Some(key) =>
        match svc.get(key, cfg.auth)
        case NoConnection => Step(fs, Threw(ConnectionFailed))
        case Reply(status, body) =>
          if status != 200 then Step(fs, Stopped)
          else Step(fs[path := File(body)], Passed)
  }

  /** Compiles `work.tex`; a successful build leaves `work.pdf` beside it. */
  function CompileLatex(fs: Fs, dir: string, svc: Services): (r: Step)
    ensures r.verdict == Passed ==> IsFile(fs, Join(dir, WorkFileName))
    ensures r.verdict == Passed <==> IsFile(fs, Join(dir, WorkFileName)) && svc.compile(fs, dir).Built?
    ensures r.verdict == Passed ==> r.fs == fs[Join(dir, PdfFileName) := File(svc.compile(fs, dir).pdf)]
    ensures r.verdict != Passed ==> r.fs == fs
  {
    if !IsFile(fs, Join(dir, WorkFileName)) then Step(fs, Stopped)
    else match svc.compile(fs, dir)
      case Built(pdf) => Step(fs[Join(dir, PdfFileName) := File(pdf)], Passed)
      case BuildFailed => Step(fs, Stopped)
      case CompilerMissing => Step(fs, Threw(CompilerNotFound))
  }

  /** A reply the program accepts as success. */
  predicate Accepted(h: Http) {
    h.Reply? && h.status == 200
  }

  /** Posts `work.pdf`; only a 200 reply counts as uploaded, and no reply at
      all is an exception. The tree is not changed. */
  function UploadPdf(fs: Fs, dir: string, cfg: Config, svc: Services): (r: Verdict)
    ensures r == Passed <==>
      (IsFile(fs, Join(dir, PdfFileName))
       && Accepted(svc.post(UploadUrl, fs[Join(dir, PdfFileName)].content, cfg.auth)))
    ensures r.Threw? <==>
      (IsFile(fs, Join(dir, PdfFileName))
       && svc.post(UploadUrl, fs[Join(dir, PdfFileName)].content, cfg.auth).NoConnection?)
    ensures r.Threw? ==> r.failure == ConnectionFailed
  {
    var path := Join(dir, PdfFileName);
    if !IsFile(fs, path) then Stopped
    else match svc.post(UploadUrl, fs[path].content, cfg.auth)
      case NoConnection => Threw(ConnectionFailed)
      case Reply(status, _) => if status == 200 then Passed else Stopped
  }

  /** Asked whether to compile and upload, only the answer `y` goes on; each
      stage runs only when the one before it succeeded. Only the info file
      and the PDF of the directory are ever written, nothing is deleted, and
      the only exceptions that escape are a request without a response and
      a missing compiler. */
  function Pipeline(fs: Fs, dir: string, answer: string, cfg: Config, svc: Services): (r: Outcome)
    ensures r.status.Resumed?
            || r.status == Raised(ConnectionFailed) || r.status == Raised(CompilerNotFound)
    ensures r.status == Resumed(Declined) <==> answer != "y"
    ensures fs.Keys <= r.fs.Keys <= fs.Keys + {Join(dir, PdfFileName)}
    ensures forall p :: p in fs && p != Join(dir, InfoFileName) && p != Join(dir, PdfFileName)
                        ==> r.fs[p] == fs[p]
    ensures answer == "y" && ProcessInfofile(fs, dir, cfg, svc).verdict != Passed ==>
      r.fs == fs && (r.status == Resumed(InfofileFailed) || r.status == Raised(ConnectionFailed))
    ensures r.status == Resumed(CompileFailed) || r.status == Resumed(UploadFailed)
            || r.status == Resumed(Uploaded) ==>
      answer == "y" && ProcessInfofile(fs, dir, cfg, svc).verdict == Passed
    ensures r.status == Resumed(UploadFailed) || r.status == Resumed(Uploaded) ==>
      CompileLatex(ProcessInfofile(fs, dir, cfg, svc).fs, dir, svc).verdict == Passed
  {
    if answer != "y" then Outcome(fs, Resumed(Declined))
    else
      var info := ProcessInfofile(fs, dir, cfg, svc);
      match info.verdict
      case Threw(f) => Outcome(info.fs, Raised(f))
      case Stopped => Outcome(info.fs, Resumed(InfofileFailed))
      case Passed =>
        var built := CompileLatex(info.fs, dir, svc);
        match built.verdict
        case Threw(f) => Outcome(built.fs, Raised(f))
        case Stopped => Outcome(built.fs, Resumed(CompileFailed))
        case Passed =>
          match UploadPdf(built.fs, dir, cfg, svc)
          case Threw(f) => Outcome(built.fs, Raised(f))
          case Stopped => Outcome(built.fs, Resumed(UploadFailed))
          case Passed => Outcome(built.fs, Resumed(Uploaded))
  }

  // ---------------------------------------------------------------------
  // Setting up a new working directory

  /** `create_synthetic_info`: writes the synthetic info file of slot
      `slotNumber` (one-based) into `dir`. */
  function CreateSyntheticInfo(fs: Fs, entry: SupervisionGroup, slotNumber: int, dir: string,
                               student: Person): (r: Fs)
    requires entry.group != []
    ensures r.Keys == fs.Keys + {Join(dir, InfoFileName)}
    ensures forall p :: p in fs && p != Join(dir, InfoFileName) ==> r[p] == fs[p]
    ensures r[Join(dir, InfoFileName)] == File(InfoFile.SyntheticInfo(entry, slotNumber, student))
  {
    fs[Join(dir, InfoFileName) := File(InfoFile.SyntheticInfo(entry, slotNumber, student))]
  }

  /** Fetches the slot's info file from the service. Any failure to get a
      successful reply is reported and leaves the directory without an info
      file; informational and redirect statuses count as success. */
  function FetchRemoteInfo(fs: Fs, entry: SupervisionGroup, slotIdx: int, dir: string,
                           cfg: Config, svc: Services): (r: Outcome)
    ensures var url := InfoFile.InfofileUrl(entry.supervisor.crsid, entry.groupNumber, slotIdx + 1);
      && (r.status == Initialised(Fetched(url)) || r.status == Initialised(FetchFailed(url)))
      && (r.status == Initialised(Fetched(url)) <==>
            (svc.get(url, cfg.auth).Reply? && !(400 <= svc.get(url, cfg.auth).status < 600)))
      && (r.status == Initialised(Fetched(url)) ==>
            r.fs == fs[Join(dir, InfoFileName) := File(svc.get(url, cfg.auth).body)])
      && (r.status == Initialised(FetchFailed(url)) ==> r.fs == fs)
  {
    var url := InfoFile.InfofileUrl(entry.supervisor.crsid, entry.groupNumber, slotIdx + 1);
    match svc.get(url, cfg.auth)
    case NoConnection => Outcome(fs, Initialised(FetchFailed(url)))
    case Reply(status, body) =>
      if 400 <= status < 600 then Outcome(fs, Initialised(FetchFailed(url)))
      else Outcome(fs[Join(dir, InfoFileName) := File(body)], Initialised(Fetched(url)))
  }

  /** The working directory of a slot of `entry`, named after the course of
      the group's first entry. */
  function SlotDir(entry: SupervisionGroup, slotIdx: int): string
    requires entry.group != []
  {
    DirName(entry.group[0].course, slotIdx)
  }

  /** The part of `fetch_booking` after the directory was found missing:
      create it, copy the template in as `work.tex`, then synthesise or
      fetch the info file. Every outcome but the failure to create it
      leaves the directory in place. */
  function SetUpSlot(fs: Fs, entry: SupervisionGroup, slotIdx: int, synthetic: bool,
                     student: Person, cfg: Config, svc: Services): (r: Outcome)
    requires entry.group != []
    ensures fs.Keys <= r.fs.Keys
    ensures r.status != Raised(CannotCreateDirectory) ==>
      SlotDir(entry, slotIdx) in r.fs && r.fs[SlotDir(entry, slotIdx)] == Directory
    ensures r.status.Initialised?
            || r.status == Raised(CannotCreateDirectory)
            || r.status == Raised(TemplateMissing) || r.status == Raised(TemplateNotAFile)
  {
    var dir := SlotDir(entry, slotIdx);
    match MakeDirs(fs, dir)
    case None => Outcome(fs, Raised(CannotCreateDirectory))
    case Some(made) =>
      if TemplatePath !in made then Outcome(made, Raised(TemplateMissing))
      else if made[TemplatePath].Directory? then Outcome(made, Raised(TemplateNotAFile))
      else
        var copied := made[Join(dir, WorkFileName) := made[TemplatePath]];
        if synthetic then
          Outcome(CreateSyntheticInfo(copied, entry, slotIdx + 1, dir, student), Initialised(Synthesised))
        else FetchRemoteInfo(copied, entry, slotIdx, dir, cfg, svc)
  }

  /** `fetch_booking`. The student must be a supervisee of the group; an
      existing working directory is handed to the pipeline after asking,
      `answer` being the line typed in reply (`None` when the console has
      ended); otherwise the slot is set up. */
  function FetchBooking(fs: Fs, entry: SupervisionGroup, slotIdx: int, synthetic: bool,
                        answer: Option<string>, cfg: Config, svc: Services): (r: Outcome)
    ensures r.status == Raised(StudentNotFound) <==> FindStudent(entry.supervisees, cfg.crsid).None?
    ensures r.status == Raised(NoGroupEntry) <==>
      FindStudent(entry.supervisees, cfg.crsid).Some? && entry.group == []
    ensures r.status == Raised(InputClosed) <==>
      && FindStudent(entry.supervisees, cfg.crsid).Some? && entry.group != []
      && SlotDir(entry, slotIdx) in fs && answer.None?
    ensures (r.status.Resumed?
             || r.status == Raised(ConnectionFailed) || r.status == Raised(CompilerNotFound)) <==>
      && FindStudent(entry.supervisees, cfg.crsid).Some? && entry.group != []
      && SlotDir(entry, slotIdx) in fs && answer.Some?
    ensures fs.Keys <= r.fs.Keys
    ensures FindStudent(entry.supervisees, cfg.crsid).Some? && entry.group != []
            && SlotDir(entry, slotIdx) in fs ==>
      && (answer.None? ==> r == Outcome(fs, Raised(InputClosed)))
      && (answer.Some? ==> r == Pipeline(fs, SlotDir(entry, slotIdx), answer.value, cfg, svc))
    ensures FindStudent(entry.supervisees, cfg.crsid).Some? && entry.group != []
            && SlotDir(entry, slotIdx) !in fs ==>
      r == SetUpSlot(fs, entry, slotIdx, synthetic,
                     FindStudent(entry.supervisees, cfg.crsid).value, cfg, svc)
  {
    match FindStudent(entry.supervisees, cfg.crsid)
    case None => Outcome(fs, Raised(StudentNotFound))
    case Some(student) =>
      if entry.group == [] then Outcome(fs, Raised(NoGroupEntry))
      else if SlotDir(entry, slotIdx) in fs then
        match answer
        case None => Outcome(fs, Raised(InputClosed))
        case Some(a) => Pipeline(fs, SlotDir(entry, slotIdx), a, cfg, svc)
      else SetUpSlot(fs, entry, slotIdx, synthetic, student, cfg, svc)
  }
}

=== FILE: booking_facts.dfy ===
/** What the booking step guarantees about the working directory, whatever
    the network, the compiler and the user answer. */
module BookingFacts {
  import opened Wrappers
  import opened Records
  import opened FileSystem
  import opened BookingStep
  import InfoFile
  import Decimal

  /** The paths the step may create or overwrite for a slot directory. */
  function SlotPaths(dir: string): set<string> {
    {dir, Join(dir, WorkFileName), Join(dir, InfoFileName), Join(dir, PdfFileName)}
  }

  /** A working-directory name ends in a digit, so it is never the template. */
  lemma SlotDirIsNotTemplate(course: string, slotIdx: int)
    ensures DirName(course, slotIdx) != TemplatePath
  {
    var n := Decimal.IntToString(slotIdx + 1);
    var d := DirName(course, slotIdx);
    assert d[|d| - 1] == n[|n| - 1];
    assert TemplatePath[|TemplatePath| - 1] == 'x';
  }

  /** In a consistent tree, nothing lies inside a directory that does not
      exist, and a file of the directory is neither it nor above it. */
  lemma FreshSlotFile(fs: Fs, dir: string, name: string)
    requires Consistent(fs) && dir !in fs
    requires |dir| > 0 && '/' !in name
    ensures Join(dir, name) !in fs
    ensures Join(dir, name) !in Parents(dir) + {dir}
  {
    JoinParents(dir, name);
    assert dir in Parents(Join(dir, name));
    assert forall q :: q in Parents(dir) ==> |q| < |dir|;
  }

  /** A user who is not a supervisee of the group gets an error before
      anything is created. */
  lemma StudentMissingChangesNothing(fs: Fs, entry: SupervisionGroup, slotIdx: int,
                                     synthetic: bool, answer: Option<string>, cfg: Config, svc: Services)
    requires forall i :: 0 <= i < |entry.supervisees| ==> entry.supervisees[i].user.crsid != cfg.crsid
    ensures FetchBooking(fs, entry, slotIdx, synthetic, answer, cfg, svc)
            == Outcome(fs, Raised(StudentNotFound))
  {
    assert FindStudent(entry.supervisees, cfg.crsid).None?;
  }

  /** Declining the prompt leaves everything as it was. */
  lemma DeclinedChangesNothing(fs: Fs, dir: string, answer: string, cfg: Config, svc: Services)
    requires answer != "y"
    ensures Pipeline(fs, dir, answer, cfg, svc) == Outcome(fs, Resumed(Declined))
  {
  }

  /** An upload is reported only after the info file was refreshed or kept,
      `work.tex` compiled into the PDF now on disk, and the service accepted
      exactly that PDF. */
  lemma UploadedMeansAccepted(fs: Fs, dir: string, answer: string, cfg: Config, svc: Services)
    requires Pipeline(fs, dir, answer, cfg, svc).status == Resumed(Uploaded)
    ensures answer == "y"
    ensures IsFile(fs, Join(dir, InfoFileName))
    ensures var r := Pipeline(fs, dir, answer, cfg, svc);
      && IsFile(r.fs, Join(dir, WorkFileName))
      && IsFile(r.fs, Join(dir, PdfFileName))
      && svc.compile(ProcessInfofile(fs, dir, cfg, svc).fs, dir)
         == Built(r.fs[Join(dir, PdfFileName)].content)
      && Accepted(svc.post(UploadUrl, r.fs[Join(dir, PdfFileName)].content, cfg.auth))
  {
    SlotPathsDistinct(dir);
  }

  /** When the info file is missing the pipeline neither compiles nor
      uploads, and leaves the tree alone. */
  lemma MissingInfofileStopsEarly(fs: Fs, dir: string, cfg: Config, svc: Services)
    requires !IsFile(fs, Join(dir, InfoFileName))
    ensures Pipeline(fs, dir, "y", cfg, svc) == Outcome(fs, Resumed(InfofileFailed))
  {
  }

  /** Setting a slot up deletes nothing, and creates or changes only the
      slot directory, the three files in it and missing directories above
      it. */
  lemma SetUpSlotConfined(fs: Fs, entry: SupervisionGroup, slotIdx: int, synthetic: bool,
                          student: Person, cfg: Config, svc: Services)
    requires entry.group != []
    ensures var r := SetUpSlot(fs, entry, slotIdx, synthetic, student, cfg, svc);
      var dir := SlotDir(entry, slotIdx);
      && fs.Keys <= r.fs.Keys
      && forall p :: p in r.fs && (p !in fs || r.fs[p] != fs[p]) ==>
           p in SlotPaths(dir) || (p in Parents(dir) && p !in fs)
  {
    var dir := SlotDir(entry, slotIdx);
    var r := SetUpSlot(fs, entry, slotIdx, synthetic, student, cfg, svc);
    match MakeDirs(fs, dir)
    case None =>
    case Some(made) =>
      assert forall p :: p in made && (p !in fs || made[p] != fs[p]) ==>
        p in SlotPaths(dir) || (p in Parents(dir) && p !in fs);
  }

  /** Whatever happens, the step deletes nothing, and creates or changes
      only the slot directory, the three files in it and missing
      directories above it. */
  lemma FetchBookingConfined(fs: Fs, entry: SupervisionGroup, slotIdx: int, synthetic: bool,
                             answer: Option<string>, cfg: Config, svc: Services)
    ensures var r := FetchBooking(fs, entry, slotIdx, synthetic, answer, cfg, svc);
      && fs.Keys <= r.fs.Keys
      && forall p :: p in r.fs && (p !in fs || r.fs[p] != fs[p]) ==>
           entry.group != []
           && (p in SlotPaths(SlotDir(entry, slotIdx))
               || (p in Parents(SlotDir(entry, slotIdx)) && p !in fs))
  {
    match FindStudent(entry.supervisees, cfg.crsid)
    case None =>
    case Some(student) =>
      if entry.group != [] {
        var dir := SlotDir(entry, slotIdx);
        if dir !in fs {
          SetUpSlotConfined(fs, entry, slotIdx, synthetic, student, cfg, svc);
        }
      }
  }

  /** In a directory that already exists, `work.tex` (the student's work)
      is never overwritten. */
  lemma ExistingWorkPreserved(fs: Fs, entry: SupervisionGroup, slotIdx: int, synthetic: bool,
                              answer: Option<string>, cfg: Config, svc: Services)
    requires entry.group != [] && SlotDir(entry, slotIdx) in fs
    requires Join(SlotDir(entry, slotIdx), WorkFileName) in fs
    ensures var r := FetchBooking(fs, entry, slotIdx, synthetic, answer, cfg, svc);
      r.fs[Join(SlotDir(entry, slotIdx), WorkFileName)]
      == fs[Join(SlotDir(entry, slotIdx), WorkFileName)]
  {
    var dir := SlotDir(entry, slotIdx);
    SlotPathsDistinct(dir);
  }

  /** When nothing stands in the way, making the slot directory succeeds,
      keeps the template and leaves the new directory empty. */
  lemma MadeForSlot(fs: Fs, entry: SupervisionGroup, slotIdx: int)
    requires Consistent(fs)
    requires entry.group != [] && SlotDir(entry, slotIdx) !in fs
    requires forall q :: q in Parents(SlotDir(entry, slotIdx)) && q in fs ==> fs[q].Directory?
    requires IsFile(fs, TemplatePath)
    ensures MakeDirs(fs, SlotDir(entry, slotIdx)).Some?
    ensures var made := MakeDirs(fs, SlotDir(entry, slotIdx)).value;
      var dir := SlotDir(entry, slotIdx);
      && made[TemplatePath] == fs[TemplatePath]
      && Join(dir, WorkFileName) !in made
      && Join(dir, InfoFileName) !in made
  {
    var dir := SlotDir(entry, slotIdx);
    SlotDirIsNotTemplate(entry.group[0].course, slotIdx);
    FreshSlotFile(fs, dir, InfoFileName);
    FreshSlotFile(fs, dir, WorkFileName);
    assert !exists q :: q in Parents(dir) + {dir} && q in fs && fs[q].File?;
  }

  /** A missing template is found only after the slot directory was made,
      so the step raises and leaves the new directory behind, empty. */
  lemma MissingTemplateLeavesEmptyDir(fs: Fs, entry: SupervisionGroup, slotIdx: int,
                                      synthetic: bool, student: Person, cfg: Config, svc: Services)
    requires Consistent(fs)
    requires entry.group != [] && SlotDir(entry, slotIdx) !in fs
    requires forall q :: q in Parents(SlotDir(entry, slotIdx)) && q in fs ==> fs[q].Directory?
    requires TemplatePath !in fs && TemplatePath !in Parents(SlotDir(entry, slotIdx))
    ensures var r := SetUpSlot(fs, entry, slotIdx, synthetic, student, cfg, svc);
      var dir := SlotDir(entry, slotIdx);
      && r.status == Raised(TemplateMissing)
      && dir in r.fs && r.fs[dir] == Directory
      && Join(dir, WorkFileName) !in r.fs
      && Join(dir, InfoFileName) !in r.fs
  {
    var dir := SlotDir(entry, slotIdx);
    SlotDirIsNotTemplate(entry.group[0].course, slotIdx);
    FreshSlotFile(fs, dir, InfoFileName);
    FreshSlotFile(fs, dir, WorkFileName);
    assert !exists q :: q in Parents(dir) + {dir} && q in fs && fs[q].File?;
  }

  /** A new slot directory with a synthesised info file. */
  lemma SyntheticSetUp(fs: Fs, entry: SupervisionGroup, slotIdx: int,
                       student: Person, cfg: Config, svc: Services)
    requires Consistent(fs)
    requires entry.group != [] && SlotDir(entry, slotIdx) !in fs
    requires forall q :: q in Parents(SlotDir(entry, slotIdx)) && q in fs ==> fs[q].Directory?
    requires IsFile(fs, TemplatePath)
    ensures var r := SetUpSlot(fs, entry, slotIdx, true, student, cfg, svc);
      var dir := SlotDir(entry, slotIdx);
      && r.status == Initialised(Synthesised)
      && r.fs[Join(dir, WorkFileName)] == fs[TemplatePath]
      && r.fs[Join(dir, InfoFileName)] == File(InfoFile.SyntheticInfo(entry, slotIdx + 1, student))
  {
    MadeForSlot(fs, entry, slotIdx);
    SlotPathsDistinct(SlotDir(entry, slotIdx));
  }

  /** A new slot directory whose info file was requested from the service. */
  lemma RemoteSetUp(fs: Fs, entry: SupervisionGroup, slotIdx: int,
                    student: Person, cfg: Config, svc: Services)
    requires Consistent(fs)
    requires entry.group != [] && SlotDir(entry, slotIdx) !in fs
    requires forall q :: q in Parents(SlotDir(entry, slotIdx)) && q in fs ==> fs[q].Directory?
    requires IsFile(fs, TemplatePath)
    ensures var r := SetUpSlot(fs, entry, slotIdx, false, student, cfg, svc);
      var dir := SlotDir(entry, slotIdx);
      var url := InfoFile.InfofileUrl(entry.supervisor.crsid, entry.groupNumber, slotIdx + 1);
      && (r.status == Initialised(Fetched(url)) || r.status == Initialised(FetchFailed(url)))
      && r.fs[Join(dir, WorkFileName)] == fs[TemplatePath]
      && (r.status == Initialised(Fetched(url)) ==>
            r.fs[Join(dir, InfoFileName)] == File(svc.get(url, cfg.auth).body))
      && (r.status == Initialised(FetchFailed(url)) ==> Join(dir, InfoFileName) !in r.fs)
  {
    MadeForSlot(fs, entry, slotIdx);
    SlotPathsDistinct(SlotDir(entry, slotIdx));
  }

  /** A new slot directory receives the template as `work.tex` and an info
      file: the synthetic one, or the one the service returned for the
      slot's address. */
  lemma SetUpSlotResult(fs: Fs, entry: SupervisionGroup, slotIdx: int, synthetic: bool,
                        student: Person, cfg: Config, svc: Services)
    requires Consistent(fs)
    requires entry.group != [] && SlotDir(entry, slotIdx) !in fs
    requires forall q :: q in Parents(SlotDir(entry, slotIdx)) && q in fs ==> fs[q].Directory?
    requires IsFile(fs, TemplatePath)
    ensures var r := SetUpSlot(fs, entry, slotIdx, synthetic, student, cfg, svc);
      var dir := SlotDir(entry, slotIdx);
      var url := InfoFile.InfofileUrl(entry.supervisor.crsid, entry.groupNumber, slotIdx + 1);
      && r.status.Initialised?
      && r.fs[dir] == Directory
      && r.fs[Join(dir, WorkFileName)] == fs[TemplatePath]
      && (synthetic ==>
            r.status.source == Synthesised
            && r.fs[Join(dir, InfoFileName)]
               == File(InfoFile.SyntheticInfo(entry, slotIdx + 1, student)))
      && (!synthetic ==>
            (r.status.source == Fetched(url) || r.status.source == FetchFailed(url))
            && (r.status.source == Fetched(url) <==>
                  (svc.get(url, cfg.auth).Reply?
                   && !(400 <= svc.get(url, cfg.auth).status < 600)))
            && (r.status.source == Fetched(url) ==>
                  r.fs[Join(dir, InfoFileName)] == File(svc.get(url, cfg.auth).body))
            && (r.status.source == FetchFailed(url) ==> Join(dir, InfoFileName) !in r.fs))
  {
    if synthetic {
      SyntheticSetUp(fs, entry, slotIdx, student, cfg, svc);
    } else {
      RemoteSetUp(fs, entry, slotIdx, student, cfg, svc);
    }
  }

  /** The same, for the whole step run by a supervisee of the group. */
  lemma NewDirectorySetUp(fs: Fs, entry: SupervisionGroup, slotIdx: int, synthetic: bool,
                          answer: Option<string>, cfg: Config, svc: Services)
    requires Consistent(fs)
    requires entry.group != [] && SlotDir(entry, slotIdx) !in fs
    requires forall q :: q in Parents(SlotDir(entry, slotIdx)) && q in fs ==> fs[q].Directory?
    requires FindStudent(entry.supervisees, cfg.crsid).Some?
    requires IsFile(fs, TemplatePath)
    ensures FetchBooking(fs, entry, slotIdx, synthetic, answer, cfg, svc)
         == SetUpSlot(fs, entry, slotIdx, synthetic,
                      FindStudent(entry.supervisees, cfg.crsid).value, cfg, svc)
    ensures FetchBooking(fs, entry, slotIdx, synthetic, answer, cfg, svc).status.Initialised?
  {
    SetUpSlotResult(fs, entry, slotIdx, synthetic,
                    FindStudent(entry.supervisees, cfg.crsid).value, cfg, svc);
  }

  /** A step that initialised a directory found none there and set the
      slot up for the configured student. */
  lemma InitialisedMeansSetUp(fs: Fs, entry: SupervisionGroup, slotIdx: int, synthetic: bool,
                              answer: Option<string>, cfg: Config, svc: Services)
    requires FetchBooking(fs, entry, slotIdx, synthetic, answer, cfg, svc).status.Initialised?
    ensures FindStudent(entry.supervisees, cfg.crsid).Some? && entry.group != []
    ensures SlotDir(entry, slotIdx) !in fs
    ensures FetchBooking(fs, entry, slotIdx, synthetic, answer, cfg, svc)
         == SetUpSlot(fs, entry, slotIdx, synthetic,
                      FindStudent(entry.supervisees, cfg.crsid).value, cfg, svc)
  {
  }

  /** Running the step again on the tree a first run set up finds the slot
      directory and goes straight to the compile-and-upload prompt. */
  lemma SecondRunResumes(fs: Fs, entry: SupervisionGroup, slotIdx: int, synthetic: bool,
                         answer: Option<string>, cfg: Config, svc: Services,
                         synthetic2: bool, answer2: string, svc2: Services)
    requires FetchBooking(fs, entry, slotIdx, synthetic, answer, cfg, svc).status.Initialised?
    ensures entry.group != []
    ensures var r := FetchBooking(fs, entry, slotIdx, synthetic, answer, cfg, svc);
      FetchBooking(r.fs, entry, slotIdx, synthetic2, Some(answer2), cfg, svc2)
      == Pipeline(r.fs, SlotDir(entry, slotIdx), answer2, cfg, svc2)
  {
  }

  /** Whether the info file is synthesised or fetched, a slot is set up
      the same way up to that choice. */
  lemma SetUpBranchesAgree(fs: Fs, entry: SupervisionGroup, slotIdx: int,
                           student: Person, cfg: Config, svc: Services)
    requires entry.group != []
    requires SetUpSlot(fs, entry, slotIdx, true, student, cfg, svc).status.Initialised?
    ensures var rs := SetUpSlot(fs, entry, slotIdx, true, student, cfg, svc);
      var rr := SetUpSlot(fs, entry, slotIdx, false, student, cfg, svc);
      var dir := SlotDir(entry, slotIdx);
      && Join(dir, InfoFileName) in rs.fs
      && rs.fs[Join(dir, InfoFileName)] == File(InfoFile.SyntheticInfo(entry, slotIdx + 1, student))
      && rr.status.Initialised? && !rr.status.source.Synthesised?
      && rr.status.source.url
         == InfoFile.InfofileUrl(entry.supervisor.crsid, entry.groupNumber, slotIdx + 1)
  {
  }

  /** The same for the whole step: the synthetic branch writes the
      synthetic info file, and the remote branch requests the slot's
      address. */
  lemma BranchesAgree(fs: Fs, entry: SupervisionGroup, slotIdx: int,
                      answer: Option<string>, cfg: Config, svc: Services)
    requires FetchBooking(fs, entry, slotIdx, true, answer, cfg, svc).status.Initialised?
    ensures FindStudent(entry.supervisees, cfg.crsid).Some? && entry.group != []
    ensures var rs := FetchBooking(fs, entry, slotIdx, true, answer, cfg, svc);
      var rr := FetchBooking(fs, entry, slotIdx, false, answer, cfg, svc);
      var dir := SlotDir(entry, slotIdx);
      && Join(dir, InfoFileName) in rs.fs
      && rs.fs[Join(dir, InfoFileName)] == File(InfoFile.SyntheticInfo(
           entry, slotIdx + 1, FindStudent(entry.supervisees, cfg.crsid).value))
      && rr.status.Initialised? && !rr.status.source.Synthesised?
      && rr.status.source.url
         == InfoFile.InfofileUrl(entry.supervisor.crsid, entry.groupNumber, slotIdx + 1)
  {
    InitialisedMeansSetUp(fs, entry, slotIdx, true, answer, cfg, svc);
    var student := FindStudent(entry.supervisees, cfg.crsid).value;
    SetUpBranchesAgree(fs, entry, slotIdx, student, cfg, svc);
  }

  /** The synthetic info file of a slot declares as its upload key the very
      address the remote branch requests for that slot, and declares the
      slot's one-based number. */
  lemma SyntheticMatchesRemote(fs: Fs, entry: SupervisionGroup, slotIdx: int,
                               answer: Option<string>, cfg: Config, svc: Services)
    requires FetchBooking(fs, entry, slotIdx, true, answer, cfg, svc).status.Initialised?
    requires FindStudent(entry.supervisees, cfg.crsid).Some?
    requires entry.group != []
    requires InfoFile.SingleLineFields(entry, FindStudent(entry.supervisees, cfg.crsid).value)
    ensures var rs := FetchBooking(fs, entry, slotIdx, true, answer, cfg, svc);
      var rr := FetchBooking(fs, entry, slotIdx, false, answer, cfg, svc);
      var info := Join(SlotDir(entry, slotIdx), InfoFileName);
      && rr.status.Initialised? && !rr.status.source.Synthesised?
      && IsFile(rs.fs, info)
      && InfoFile.MacroValue(rs.fs[info].content, "svuploadkey") == Some(rr.status.source.url)
      && InfoFile.MacroValue(rs.fs[info].content, "svnumber")
         == Some(Decimal.IntToString(slotIdx + 1))
  {
    var student := FindStudent(entry.supervisees, cfg.crsid).value;
    BranchesAgree(fs, entry, slotIdx, answer, cfg, svc);
    InfoFile.SyntheticDeclarations(entry, slotIdx + 1, student);
  }

  // ---------------------------------------------------------------------
  // The tree stays a tree

  lemma ProcessInfofileConsistent(fs: Fs, dir: string, cfg: Config, svc: Services)
    requires Consistent(fs) && |dir| > 0
    ensures Consistent(ProcessInfofile(fs, dir, cfg, svc).fs)
  {
    var path := Join(dir, InfoFileName);
    if ProcessInfofile(fs, dir, cfg, svc).fs != fs {
      JoinParents(dir, InfoFileName);
      assert dir in Parents(path);
      WriteFileConsistent(fs, dir, InfoFileName,
        svc.get(svc.uploadKeyOf(fs[path].content).value, cfg.auth).body);
    }
  }

  lemma CompileLatexConsistent(fs: Fs, dir: string, svc: Services)
    requires Consistent(fs) && |dir| > 0
    requires !(Join(dir, PdfFileName) in fs && fs[Join(dir, PdfFileName)].Directory?)
    ensures Consistent(CompileLatex(fs, dir, svc).fs)
  {
    if CompileLatex(fs, dir, svc).verdict == Passed {
      JoinParents(dir, WorkFileName);
      assert dir in Parents(Join(dir, WorkFileName));
      WriteFileConsistent(fs, dir, PdfFileName, svc.compile(fs, dir).pdf);
    }
  }

  /** The pipeline keeps the tree consistent, provided the compiler is not
      asked to write its PDF over a directory. */
  lemma PipelineConsistent(fs: Fs, dir: string, answer: string, cfg: Config, svc: Services)
    requires Consistent(fs) && |dir| > 0
    requires !(Join(dir, PdfFileName) in fs && fs[Join(dir, PdfFileName)].Directory?)
    ensures Consistent(Pipeline(fs, dir, answer, cfg, svc).fs)
  {
    if answer == "y" {
      var info := ProcessInfofile(fs, dir, cfg, svc);
      ProcessInfofileConsistent(fs, dir, cfg, svc);
      if info.verdict == Passed {
        CompileLatexConsistent(info.fs, dir, svc);
      }
    }
  }

  /** Setting a slot up keeps the tree consistent. */
  lemma SetUpSlotConsistent(fs: Fs, entry: SupervisionGroup, slotIdx: int, synthetic: bool,
                            student: Person, cfg: Config, svc: Services)
    requires Consistent(fs) && entry.group != [] && SlotDir(entry, slotIdx) !in fs
    ensures Consistent(SetUpSlot(fs, entry, slotIdx, synthetic, student, cfg, svc).fs)
  {
    var dir := SlotDir(entry, slotIdx);
    if MakeDirs(fs, dir).Some? {
      var made := MakeDirs(fs, dir).value;
      MakeDirsConsistent(fs, dir);
      SlotDirIsNotTemplate(entry.group[0].course, slotIdx);
      if TemplatePath in made && made[TemplatePath].File? {
        SlotPathsDistinct(dir);
        FreshSlotFile(fs, dir, WorkFileName);
        FreshSlotFile(fs, dir, InfoFileName);
        var copied := made[Join(dir, WorkFileName) := made[TemplatePath]];
        WriteFileConsistent(made, dir, WorkFileName, made[TemplatePath].content);
        if synthetic {
          WriteFileConsistent(copied, dir, InfoFileName,
            InfoFile.SyntheticInfo(entry, slotIdx + 1, student));
        } else {
          var url := InfoFile.InfofileUrl(entry.supervisor.crsid, entry.groupNumber, slotIdx + 1);
          if svc.get(url, cfg.auth).Reply? && !(400 <= svc.get(url, cfg.auth).status < 600) {
            WriteFileConsistent(copied, dir, InfoFileName, svc.get(url, cfg.auth).body);
          }
        }
      }
    }
  }

  /** The step keeps the directory tree consistent, provided the compiler
      is not asked to write its PDF over a directory. */
  lemma FetchBookingConsistent(fs: Fs, entry: SupervisionGroup, slotIdx: int, synthetic: bool,
                               answer: Option<string>, cfg: Config, svc: Services)
    requires Consistent(fs)
    requires entry.group != [] ==>
      !(Join(SlotDir(entry, slotIdx), PdfFileName) in fs
        && fs[Join(SlotDir(entry, slotIdx), PdfFileName)].Directory?)
    ensures Consistent(FetchBooking(fs, entry, slotIdx, synthetic, answer, cfg, svc).fs)
  {
    match FindStudent(entry.supervisees, cfg.crsid)
    case None =>
    case Some(student) =>
      if entry.group != [] {
        var dir := SlotDir(entry, slotIdx);
        if dir in fs {
          if answer.Some? {
            PipelineConsistent(fs, dir, answer.value, cfg, svc);
          }
        } else {
          SetUpSlotConsistent(fs, entry, slotIdx, synthetic, student, cfg, svc);
        }
      }
  }
}

=== FILE: courses.dfy ===
/** `get_unique_courses`: the distinct (course, subject, tripos) triples of
    the eligible groups, in the order Python's `sorted` puts tuples of
    strings — lexicographic on the triple, each string compared code point by
    code point, a proper prefix first. */
module Courses {
  import opened Records

  /** Python's `<` on two strings. */
  predicate StrLess(a: string, b: string)
    decreases |a|
  {
    if a == [] then b != []
    else if b == [] then false
    else if a[0] != b[0] then a[0] < b[0]
    else StrLess(a[1..], b[1..])
  }

  lemma {:induction false} StrLessIrreflexive(a: string)
    ensures !StrLess(a, a)
    decreases |a|
  {
    if a != [] {
      StrLessIrreflexive(a[1..]);
    }
  }

  lemma {:induction false} StrLessTransitive(a: string, b: string, c: string)
    requires StrLess(a, b) && StrLess(b, c)
    ensures StrLess(a, c)
    decreases |a|
  {
    if a != [] && b != [] && c != [] && a[0] == b[0] && b[0] == c[0] {
      StrLessTransitive(a[1..], b[1..], c[1..]);
    }
  }

  lemma {:induction false} StrLessTotal(a: string, b: string)
    requires a != b
    ensures StrLess(a, b) || StrLess(b, a)
    decreases |a|
  {
    if a != [] && b != [] && a[0] == b[0] {
      assert a == [a[0]] + a[1..];
      assert b == [b[0]] + b[1..];
      StrLessTotal(a[1..], b[1..]);
    }
  }

  /** The triple a group entry contributes to the course menu. */
  datatype CourseKey = CourseKey(course: string, subject: string, tripos: string)

  function KeyOf(e: GroupEntry): CourseKey {
    CourseKey(e.course, e.subject, e.tripos)
  }

  /** Python's `<` on two triples: the first differing component decides. */
  predicate KeyLess(x: CourseKey, y: CourseKey) {
    if x.course != y.course then StrLess(x.course, y.course)
    else if x.subject != y.subject then StrLess(x.subject, y.subject)
    else StrLess(x.tripos, y.tripos)
  }

  lemma KeyLessIrreflexive(x: CourseKey)
    ensures !KeyLess(x, x)
  {
    StrLessIrreflexive(x.tripos);
  }

  lemma KeyLessTransitive(x: CourseKey, y: CourseKey, z: CourseKey)
    requires KeyLess(x, y) && KeyLess(y, z)
    ensures KeyLess(x, z)
  {
    if x.course != y.course && y.course != z.course {
      StrLessTransitive(x.course, y.course, z.course);
      if x.course == z.course {
        StrLessIrreflexive(x.course);
      }
    } else if x.course == y.course && y.course == z.course {
      if x.subject != y.subject && y.subject != z.subject {
        StrLessTransitive(x.subject, y.subject, z.subject);
        if x.subject == z.subject {
          StrLessIrreflexive(x.subject);
        }
      } else if x.subject == y.subject && y.subject == z.subject {
        StrLessTransitive(x.tripos, y.tripos, z.tripos);
      }
    }
  }

  lemma KeyLessTotal(x: CourseKey, y: CourseKey)
    requires x != y
    ensures KeyLess(x, y) || KeyLess(y, x)
  {
    if x.course != y.course {
      StrLessTotal(x.course, y.course);
    } else if x.subject != y.subject {
      StrLessTotal(x.subject, y.subject);
    } else {
      StrLessTotal(x.tripos, y.tripos);
    }
  }

  ghost predicate StrictlyAscending(s: seq<CourseKey>) {
    forall i, j :: 0 <= i < j < |s| ==> KeyLess(s[i], s[j])
  }

  /** Adds `k` to a strictly ascending sequence, keeping it strictly
      ascending and adding nothing when `k` is already there. */
  function InsertKey(s: seq<CourseKey>, k: CourseKey): (r: seq<CourseKey>)
    requires StrictlyAscending(s)
    ensures StrictlyAscending(r)
    ensures forall y :: y in r <==> y in s || y == k
    decreases |s|
  {
    if s == [] then [k]
    else if k == s[0] then s
    else if KeyLess(k, s[0]) then
      assert forall j :: 0 < j < |s| ==> KeyLess(s[0], s[j]);
      KeyLessTransitiveAll(k, s);
      [k] + s
    else
      KeyLessTotal(k, s[0]);
      var rest := InsertKey(s[1..], k);
      assert forall y :: y in s <==> y == s[0] || y in s[1..];
      assert forall j :: 0 <= j < |rest| ==> rest[j] in rest;
      [s[0]] + rest
  }

  lemma KeyLessTransitiveAll(k: CourseKey, s: seq<CourseKey>)
    requires StrictlyAscending(s) && s != [] && KeyLess(k, s[0])
    ensures forall j :: 0 <= j < |s| ==> KeyLess(k, s[j])
  {
    forall j | 0 < j < |s|
      ensures KeyLess(k, s[j])
    {
      KeyLessTransitive(k, s[0], s[j]);
    }
  }

  /** The triples of `entries` added one by one. */
  function InsertEntries(s: seq<CourseKey>, entries: seq<GroupEntry>): (r: seq<CourseKey>)
    requires StrictlyAscending(s)
    ensures StrictlyAscending(r)
    ensures forall y :: y in r <==> y in s || exists j :: 0 <= j < |entries| && KeyOf(entries[j]) == y
    decreases |entries|
  {
    if entries == [] then s
    else
      var r := InsertEntries(InsertKey(s, KeyOf(entries[0])), entries[1..]);
      assert forall j :: 0 < j < |entries| ==> entries[j] == entries[1..][j - 1];
      r
  }

  /** The triples of every entry of every group added one by one. */
  function InsertGroups(s: seq<CourseKey>, groups: seq<SupervisionGroup>): (r: seq<CourseKey>)
    requires StrictlyAscending(s)
    ensures StrictlyAscending(r)
    ensures forall y :: y in r <==>
              (y in s ||
               exists i, j :: 0 <= i < |groups| && 0 <= j < |groups[i].group| && KeyOf(groups[i].group[j]) == y)
    decreases |groups|
  {
    if groups == [] then s
    else
      var r := InsertGroups(InsertEntries(s, groups[0].group), groups[1..]);
      assert forall i :: 0 < i < |groups| ==> groups[i] == groups[1..][i - 1];
      r
  }

  /** `get_unique_courses`: a strictly ascending sequence, hence without
      duplicates, of exactly the triples some group entry carries. */
  function UniqueCourses(groups: seq<SupervisionGroup>): (r: seq<CourseKey>)
    ensures StrictlyAscending(r)
    ensures forall i, j :: 0 <= i < j < |r| ==> r[i] != r[j]
    ensures forall y :: y in r <==>
              exists i, j :: 0 <= i < |groups| && 0 <= j < |groups[i].group| && KeyOf(groups[i].group[j]) == y
  {
    var r := InsertGroups([], groups);
    assert forall i, j :: 0 <= i < j < |r| ==> r[i] != r[j] by {
      forall i, j | 0 <= i < j < |r|
        ensures r[i] != r[j]
      {
        if r[i] == r[j] {
          KeyLessIrreflexive(r[i]);
        }
      }
    }
    r
  }

  /** A strictly ascending sequence is determined by its elements, so the
      result is the one `sorted(set(...))` builds. */
  lemma {:induction false} AscendingUnique(a: seq<CourseKey>, b: seq<CourseKey>)
    requires StrictlyAscending(a) && StrictlyAscending(b)
    requires forall y :: y in a <==> y in b
    ensures a == b
    decreases |a|
  {
    if a != [] {
      assert a[0] in a;
    }
    if b != [] {
      assert b[0] in b;
    }
    if a != [] && b != [] {
      HeadsAgree(a, b);
      forall y
        ensures y in a[1..] <==> y in b[1..]
      {
        AscendingHeadNotInTail(a, y);
        AscendingHeadNotInTail(b, y);
        assert y in a <==> y == a[0] || y in a[1..];
        assert y in b <==> y == b[0] || y in b[1..];
      }
      AscendingUnique(a[1..], b[1..]);
      assert a == [a[0]] + a[1..];
      assert b == [b[0]] + b[1..];
    }
  }

  lemma HeadsAgree(a: seq<CourseKey>, b: seq<CourseKey>)
    requires StrictlyAscending(a) && StrictlyAscending(b) && a != [] && b != []
    requires a[0] in b && b[0] in a
    ensures a[0] == b[0]
  {
    if a[0] != b[0] {
      HeadIsLeast(a, b[0]);
      HeadIsLeast(b, a[0]);
      KeyLessTransitive(a[0], b[0], a[0]);
      KeyLessIrreflexive(a[0]);
    }
  }

  lemma HeadIsLeast(s: seq<CourseKey>, y: CourseKey)
    requires StrictlyAscending(s) && s != [] && y in s && y != s[0]
    ensures KeyLess(s[0], y)
  {
  }

  lemma AscendingHeadNotInTail(s: seq<CourseKey>, y: CourseKey)
    requires StrictlyAscending(s) && s != []
    ensures y == s[0] ==> y !in s[1..]
  {
    if y == s[0] && y in s[1..] {
      var j :| 0 <= j < |s[1..]| && s[1..][j] == y;
      assert KeyLess(s[0], s[j + 1]);
      KeyLessIrreflexive(y);
    }
  }
}

=== FILE: datetime.dfy ===
/** The datetime normaliser: turning the outcome of an ISO-8601 parse into a
    comparable UTC instant, with a far-future fallback instead of an error.

    Instants are integers counting microseconds (Python's `datetime`
    resolution) from 0001-01-01T00:00:00 UTC. The ISO-8601 grammar itself is
    not modelled: what `datetime.fromisoformat` made of a string is an input. */
module DateTime {
  import opened Wrappers

  const Microsecond: int := 1
  const Second: int := 1_000_000 * Microsecond
  const Day: int := 86_400 * Second
  const Week: int := 7 * Day

  /** The wall-clock value of `datetime.max`, 9999-12-31T23:59:59.999999:
      3652059 days (its proleptic ordinal) minus one microsecond. */
  const MaxWall: int := 3_652_059 * Day - 1

  /** A naive wall-clock reading, within the range Python's `datetime` can hold. */
  type WallClock = w: int | 0 <= w <= MaxWall

  /** A UTC offset; Python requires it to lie strictly between -24h and +24h. */
  type UtcOffset = o: int | -Day < o < Day

  /** What `datetime.fromisoformat` made of a string: a `ValueError`, or a
      wall-clock reading with the offset the string stated, if it stated one. */
  datatype IsoParse =
    | ParseFailed
    | Parsed(wall: WallClock, offset: Option<UtcOffset>)

  /** The fallback for unparseable strings: `datetime.max` read as UTC. */
  const Sentinel: int := MaxWall

  /** `parse_datetime`: a naive reading is taken as UTC, an aware one is
      shifted by its offset, and a parse failure becomes the sentinel. */
  function ParseDateTime(p: IsoParse): (instant: int)
    ensures p.ParseFailed? ==> instant == Sentinel
    ensures p.Parsed? && p.offset.None? ==> instant == p.wall
    ensures p.Parsed? && p.offset.Some? ==> instant + p.offset.value == p.wall
  {
    match p
    case ParseFailed => Sentinel
    case Parsed(wall, None) => wall
    case Parsed(wall, Some(offset)) => wall - offset
  }

  /** A naive string and the same string suffixed with a zero offset denote
      the same instant. */
  lemma NaiveIsUtc(w: WallClock)
    ensures ParseDateTime(Parsed(w, None)) == ParseDateTime(Parsed(w, Some(0)))
  {
  }

  /** The sentinel is not earlier than any parsed instant whose offset is
      absent or not negative. */
  lemma SentinelBoundsUtcAndEast(p: IsoParse)
    requires p.Parsed? ==> p.offset.None? || p.offset.value >= 0
    ensures ParseDateTime(p) <= Sentinel
  {
  }

  /** Every instant the normaliser can return lies within a day of the
      wall-clock range. */
  lemma InstantRange(p: IsoParse)
    ensures -Day < ParseDateTime(p) < MaxWall + Day
  {
  }

  /** The sentinel is not the latest instant: a reading on the last day of
      year 9999 with a negative offset lies after it, so a well-formed start
      can count as later than a malformed one. */
  lemma SentinelExceededWest()
    ensures ParseDateTime(Parsed(MaxWall, Some(-3600 * Second))) > Sentinel
  {
  }
}

=== FILE: decimal.dfy ===
/** Decimal text of integers, as Python's `str(int)` (and so an f-string
    placeholder holding an `int`) writes it, and a reader for that text. */
module Decimal {
  import opened Wrappers

  predicate IsDigit(c: char) {
    '0' <= c <= '9'
  }

  predicate AllDigits(s: string) {
    forall k :: 0 <= k < |s| ==> IsDigit(s[k])
  }

  function DigitChar(d: nat): (c: char)
    requires d < 10
    ensures IsDigit(c) && c as int - '0' as int == d
  {
    (d + '0' as int) as char
  }

  function DigitValue(c: char): (d: nat)
    requires IsDigit(c)
    ensures d < 10
  {
    c as int - '0' as int
  }

  /** The digits of `n`, most significant first, without leading zeros. */
  function NatToString(n: nat): (s: string)
    ensures |s| > 0 && AllDigits(s)
    ensures |s| > 1 ==> s[0] != '0'
    decreases n
  {
    if n < 10 then [DigitChar(n)] else NatToString(n / 10) + [DigitChar(n % 10)]
  }

  /** Python's `str(i)`: a minus sign for negative numbers, then the digits. */
  function IntToString(i: int): (s: string)
    ensures |s| > 0
    ensures forall k :: 0 <= k < |s| ==> IsDigit(s[k]) || s[k] == '-'
  {
    if i < 0 then "-" + NatToString(-i) else NatToString(i)
  }

  /** The number a run of digits denotes. */
  function DigitsValue(s: string): nat
    requires AllDigits(s)
    decreases |s|
  {
    if s == [] then 0 else DigitsValue(s[..|s| - 1]) * 10 + DigitValue(s[|s| - 1])
  }

  /** Reads an optionally signed run of digits; anything else is refused. */
  function ParseInt(s: string): Option<int>
  {
    if |s| > 1 && s[0] == '-' && AllDigits(s[1..]) then Some(0 - DigitsValue(s[1..]) as int)
    else if |s| > 0 && AllDigits(s) then Some(DigitsValue(s))
    else None
  }

  lemma {:induction false} NatRoundTrip(n: nat)
    ensures DigitsValue(NatToString(n)) == n
    decreases n
  {
    if n >= 10 {
      var a := NatToString(n / 10);
      var s := a + [DigitChar(n % 10)];
      assert s[..|s| - 1] == a;
      NatRoundTrip(n / 10);
    }
  }

  /** Reading back the text of any integer yields that integer. */
  lemma IntRoundTrip(i: int)
    ensures ParseInt(IntToString(i)) == Some(i)
  {
    if i < 0 {
      var s := IntToString(i);
      assert s[1..] == NatToString(-i);
      NatRoundTrip(-i);
    } else {
      NatRoundTrip(i);
    }
  }

  /** Distinct integers have distinct texts. */
  lemma IntToStringInjective(i: int, j: int)
    requires IntToString(i) == IntToString(j)
    ensures i == j
  {
    IntRoundTrip(i);
    IntRoundTrip(j);
  }
}

=== FILE: eligibility.dfy ===
/** The eligibility filter: which supervision groups concern the student's
    tripos and still have capacity, or an upcoming booking, to act on. */
module Eligibility {
  import opened DateTime
  import opened Records
  import Seqs

  /** `any(supervisee['tripos'] == tripos for supervisee in entries)`. */
  function AnyInTripos(entries: seq<GroupEntry>, tripos: string): (r: bool)
    ensures r <==> exists i :: 0 <= i < |entries| && entries[i].tripos == tripos
  {
    Seqs.Any(entries, (e: GroupEntry) => e.tripos == tripos)
  }

  /** `has_student_in_tripos`: some entry of the group is in `tripos`. */
  predicate HasStudentInTripos(g: SupervisionGroup, tripos: string) {
    AnyInTripos(g.group, tripos)
  }

  /** The minutes already booked: the sum of the bookings' durations. With
      no negative duration, no single booking exceeds the total. */
  function TotalDuration(bookings: seq<Booking>): (r: int)
    ensures bookings == [] ==> r == 0
    ensures (forall i :: 0 <= i < |bookings| ==> bookings[i].duration >= 0) ==>
              forall i :: 0 <= i < |bookings| ==> 0 <= bookings[i].duration <= r
    decreases |bookings|
  {
    if bookings == [] then 0 else bookings[0].duration + TotalDuration(bookings[1..])
  }

  /** Booked minutes add up over consecutive runs of bookings. */
  lemma {:induction false} TotalDurationAppend(a: seq<Booking>, b: seq<Booking>)
    ensures TotalDuration(a + b) == TotalDuration(a) + TotalDuration(b)
    decreases |a|
  {
    if a == [] {
      assert a + b == b;
    } else {
      assert (a + b)[1..] == a[1..] + b;
      TotalDurationAppend(a[1..], b);
    }
  }

  /** Some booking's start, once normalised, lies strictly after `now`. */
  function AnyStartsAfter(bookings: seq<Booking>, now: int): (r: bool)
    ensures r <==> exists i :: 0 <= i < |bookings| && ParseDateTime(bookings[i].startTime) > now
  {
    Seqs.Any(bookings, (b: Booking) => ParseDateTime(b.startTime) > now)
  }

  /** `check_booking_criteria`, with the clock reading `now` as a parameter:
      capacity remains, or it is used up exactly and a booking is still to
      come; an over-booked group never qualifies. */
  predicate CheckBookingCriteria(g: SupervisionGroup, now: int)
    ensures TotalDuration(g.bookings) < g.minutesAllocated ==> CheckBookingCriteria(g, now)
    ensures TotalDuration(g.bookings) == g.minutesAllocated ==>
              (CheckBookingCriteria(g, now) <==>
                 exists i :: 0 <= i < |g.bookings| && ParseDateTime(g.bookings[i].startTime) > now)
    ensures TotalDuration(g.bookings) > g.minutesAllocated ==> !CheckBookingCriteria(g, now)
  {
    var booked := TotalDuration(g.bookings);
    if booked < g.minutesAllocated then true
    else if booked == g.minutesAllocated then AnyStartsAfter(g.bookings, now)
    else false
  }

  /** The condition of the list comprehension in `filter_supervisions`. */
  predicate Eligible(g: SupervisionGroup, tripos: string, now: int) {
    HasStudentInTripos(g, tripos) && CheckBookingCriteria(g, now)
  }

  /** `filter_supervisions`: the eligible groups, in their original order and
      with their original multiplicities. */
  function FilterSupervisions(groups: seq<SupervisionGroup>, tripos: string, now: int)
    : (r: seq<SupervisionGroup>)
    ensures Seqs.IsSubsequence(r, groups)
    ensures forall g :: multiset(r)[g] == if Eligible(g, tripos, now) then multiset(groups)[g] else 0
    ensures forall g :: g in r <==>
              && g in groups
              && (exists i :: 0 <= i < |g.group| && g.group[i].tripos == tripos)
              && CheckBookingCriteria(g, now)
  {
    Seqs.Filter(groups, g => Eligible(g, tripos, now))
  }

  /** A booking whose start could not be parsed counts as still to come
      whenever the clock is before the sentinel, so it keeps a fully booked
      group eligible. */
  lemma MalformedStartKeepsFullGroup(g: SupervisionGroup, now: int, i: int)
    requires TotalDuration(g.bookings) == g.minutesAllocated
    requires 0 <= i < |g.bookings| && g.bookings[i].startTime.ParseFailed?
    requires now < Sentinel
    ensures CheckBookingCriteria(g, now)
  {
  }

  /** A fully booked group whose bookings have all started is dropped. */
  lemma FullGroupInThePastDropped(g: SupervisionGroup, now: int)
    requires TotalDuration(g.bookings) == g.minutesAllocated
    requires forall i :: 0 <= i < |g.bookings| ==> ParseDateTime(g.bookings[i].startTime) <= now
    ensures !CheckBookingCriteria(g, now)
  {
  }

  /** An eligible group is never over-booked. */
  lemma EligibleNotOverbooked(g: SupervisionGroup, tripos: string, now: int)
    requires Eligible(g, tripos, now)
    ensures TotalDuration(g.bookings) <= g.minutesAllocated
  {
  }
}

=== FILE: filesystem.dfy ===
/** The part of the working directory the booking step touches: a map from
    relative paths to nodes, and the names the program gives its files. */
module FileSystem {
  import opened Wrappers
  import Decimal
  import Text

  datatype Node = Directory | File(content: string)

  /** Every path that exists, with what is there. */
  type Fs = map<string, Node>

  const WorkFileName: string := "work.tex"
  const InfoFileName: string := "infofile.tex"
  /** `work.tex` with its extension replaced, as the upload step derives it. */
  const PdfFileName: string := "work.pdf"
  const TemplatePath: string := "template/perSV_mywork.tex"

  /** `os.path.join` of a directory name and a plain file name. */
  function Join(dir: string, name: string): string {
    dir + "/" + name
  }

  predicate IsFile(fs: Fs, path: string) {
    path in fs && fs[path].File?
  }

  /** The directories above `path`: its prefixes that end just before a
      slash, a leading slash aside. */
  function Parents(path: string): set<string> {
    set i | 0 < i < |path| && path[i] == '/' :: path[..i]
  }

  /** What a real directory tree guarantees: everything above an existing
      path is an existing directory. */
  ghost predicate Consistent(fs: Fs) {
    forall p, q :: p in fs && q in Parents(p) ==> q in fs && fs[q].Directory?
  }

  /** `os.makedirs(dir, exist_ok=True)`: creates `dir` and every missing
      directory above it, and fails when any of them exists as a file. */
  function MakeDirs(fs: Fs, dir: string): (r: Option<Fs>)
    ensures r.None? <==> exists q :: q in Parents(dir) + {dir} && q in fs && fs[q].File?
    ensures r.Some? ==> r.value.Keys == fs.Keys + Parents(dir) + {dir}
    ensures r.Some? ==> forall q :: q in Parents(dir) + {dir} ==> r.value[q] == Directory
    ensures r.Some? ==> forall p :: p in fs ==> r.value[p] == fs[p]
  {
    if exists q :: q in Parents(dir) + {dir} && q in fs && fs[q].File? then None
    else Some(fs + map q | q in Parents(dir) + {dir} :: Directory)
  }

  /** A file name holds no slash, so the directories above a file in `dir`
      are `dir` and the directories above it. */
  lemma JoinParents(dir: string, name: string)
    requires |dir| > 0 && '/' !in name
    ensures Parents(Join(dir, name)) == Parents(dir) + {dir}
  {
    var j := Join(dir, name);
    assert forall i :: 0 <= i < |dir| ==> j[i] == dir[i];
    assert forall i :: |dir| < i < |j| ==> j[i] == name[i - |dir| - 1];
    forall q | q in Parents(j)
      ensures q in Parents(dir) + {dir}
    {
      var i :| 0 < i < |j| && j[i] == '/' && q == j[..i];
      if i < |dir| {
        assert q == dir[..i];
      } else {
        assert i == |dir|;
        assert q == dir;
      }
    }
    forall q | q in Parents(dir) + {dir}
      ensures q in Parents(j)
    {
      if q == dir {
        assert j[..|dir|] == dir && j[|dir|] == '/';
      } else {
        var i :| 0 < i < |dir| && dir[i] == '/' && q == dir[..i];
        assert j[..i] == q;
      }
    }
  }

  /** The directories above a directory above `path` are above `path`. */
  lemma ParentsOfParent(path: string, q: string)
    requires q in Parents(path)
    ensures Parents(q) <= Parents(path)
  {
    var k :| 0 < k < |path| && path[k] == '/' && q == path[..k];
    forall r | r in Parents(q)
      ensures r in Parents(path)
    {
      var i :| 0 < i < |q| && q[i] == '/' && r == q[..i];
      assert path[i] == '/' && path[..i] == r;
    }
  }

  /** Creating directories keeps the tree consistent. */
  lemma MakeDirsConsistent(fs: Fs, dir: string)
    requires Consistent(fs) && MakeDirs(fs, dir).Some?
    ensures Consistent(MakeDirs(fs, dir).value)
  {
    var made := MakeDirs(fs, dir).value;
    forall p, q | p in made && q in Parents(p)
      ensures q in made && made[q].Directory?
    {
      if p in fs {
        assert q in fs && fs[q].Directory?;
      } else if p == dir {
        assert q in Parents(dir);
      } else {
        assert p in Parents(dir);
        ParentsOfParent(dir, p);
      }
    }
  }

  /** Writing a file into an existing directory keeps the tree consistent,
      unless the name is taken by a directory. */
  lemma WriteFileConsistent(fs: Fs, dir: string, name: string, content: string)
    requires Consistent(fs) && dir in fs && fs[dir].Directory?
    requires |dir| > 0 && '/' !in name
    requires Join(dir, name) !in fs || fs[Join(dir, name)].File?
    ensures Consistent(fs[Join(dir, name) := File(content)])
  {
    var j := Join(dir, name);
    var w := fs[j := File(content)];
    JoinParents(dir, name);
    forall p, q | p in w && q in Parents(p)
      ensures q in w && w[q].Directory?
    {
      if p == j {
        assert q == dir || q in Parents(dir);
      } else {
        assert q in fs && fs[q].Directory?;
      }
    }
  }

  /** The working directory of a slot: the course name, an underscore and the
      one-based slot number. */
  function DirName(course: string, slotIdx: int): (r: string)
    ensures |course| < |r| && r[..|course|] == course && r[|course|] == '_'
  {
    course + "_" + Decimal.IntToString(slotIdx + 1)
  }

  /** Reads a working-directory name back into the course and the zero-based
      slot index, cutting at the last underscore. */
  function ParseDirName(name: string): Option<(string, int)> {
    match Text.SplitLast(name, '_')
    case None => None
    case Some((course, number)) =>
      match Decimal.ParseInt(number)
      case None => None
      case Some(n) => Some((course, n - 1))
  }

  /** A working-directory name determines its course and slot, even when the
      course name itself holds underscores. */
  lemma DirNameRoundTrip(course: string, slotIdx: int)
    ensures ParseDirName(DirName(course, slotIdx)) == Some((course, slotIdx))
  {
    var n := Decimal.IntToString(slotIdx + 1);
    assert DirName(course, slotIdx) == course + ['_'] + n;
    Text.SplitLastOfJoin(course, '_', n);
    Decimal.IntRoundTrip(slotIdx + 1);
  }

  /** Two slots share a working directory only if they are the same slot of
      the same course name. */
  lemma DirNameInjective(c1: string, i1: int, c2: string, i2: int)
    requires DirName(c1, i1) == DirName(c2, i2)
    ensures c1 == c2 && i1 == i2
  {
    DirNameRoundTrip(c1, i1);
    DirNameRoundTrip(c2, i2);
  }

  /** The files of a working directory are distinct paths, and none of them
      is the directory itself. */
  lemma SlotPathsDistinct(dir: string)
    ensures Join(dir, WorkFileName) != Join(dir, InfoFileName)
    ensures Join(dir, WorkFileName) != Join(dir, PdfFileName)
    ensures Join(dir, InfoFileName) != Join(dir, PdfFileName)
    ensures dir != Join(dir, WorkFileName) && dir != Join(dir, InfoFileName)
            && dir != Join(dir, PdfFileName)
  {
    var w, i, p := Join(dir, WorkFileName), Join(dir, InfoFileName), Join(dir, PdfFileName);
    assert w[|dir| + 1] == 'w' && i[|dir| + 1] == 'i';
    assert w[|dir| + 5] == '.' && p[|dir| + 5] == '.';
    assert w[|dir| + 6] == 't' && p[|dir| + 6] == 'p';
    assert p[|dir| + 1] == 'w';
  }
}

=== FILE: infofile.dfy ===
/** The info document of a working directory: one LaTeX `\newcommand`
    declaration per line, blank lines between groups, read by the document
    compilation. This module writes the synthetic document of a slot that is
    not booked yet, builds the info-file address of a slot on the scheduling
    service, and gives a reader for both, so that what they say can be read
    back. */
module InfoFile {
  import opened Wrappers
  import opened Records
  import Decimal
  import Text

  /** One line of an info document. */
  datatype Line = Blank | Declare(name: string, value: string)

  const NewCommand: string := "\\newcommand{\\"

  function RenderLine(l: Line): string {
    match l
    case Blank => ""
    case Declare(name, value) => NewCommand + name + "}{" + value + "}"
  }

  /** Every line followed by a newline, the last one included. */
  function Render(ls: seq<Line>): string
    decreases |ls|
  {
    if ls == [] then "" else RenderLine(ls[0]) + "\n" + Render(ls[1..])
  }

  /** Reads one line back: an empty line, or `\newcommand{\NAME}{VALUE}`
      whose name runs to the first closing brace. */
  function ParseLine(s: string): Option<Line> {
    if s == "" then Some(Blank)
    else if |s| >= |NewCommand| && s[..|NewCommand|] == NewCommand then
      var rest := s[|NewCommand|..];
      match Text.FirstIndexOf(rest, '}')
      case None => None
      case Some(i) =>
        var after := rest[i + 1..];
        if |after| >= 2 && after[0] == '{' && after[|after| - 1] == '}'
        then Some(Declare(rest[..i], after[1..|after| - 1]))
        else None
    else None
  }

  /** The lines of a document that read as declarations or blank lines, in
      order; other lines are skipped. */
  function ParseInfo(text: string): seq<Line>
    decreases |text|
  {
    if text == [] then []
    else
      match Text.FirstIndexOf(text, '\n')
      case None => Keep(ParseLine(text))
      case Some(i) => Keep(ParseLine(text[..i])) + ParseInfo(text[i + 1..])
  }

  function Keep(l: Option<Line>): seq<Line> {
    match l
    case None => []
    case Some(line) => [line]
  }

  /** The value of the first declaration of `name`. */
  function Lookup(ls: seq<Line>, name: string): Option<string>
    decreases |ls|
  {
    if ls == [] then None
    else if ls[0].Declare? && ls[0].name == name then Some(ls[0].value)
    else Lookup(ls[1..], name)
  }

  /** The value a document gives the macro `name`. */
  function MacroValue(text: string, name: string): Option<string> {
    Lookup(ParseInfo(text), name)
  }

  predicate NoNewline(s: string) {
    '\n' !in s
  }

  /** A line that renders as one line and reads back as itself. */
  predicate WellFormed(l: Line) {
    l.Declare? ==>
      && NoNewline(l.name) && NoNewline(l.value) && '}' !in l.name
  }

  lemma ParseRenderLine(l: Line)
    requires WellFormed(l)
    ensures ParseLine(RenderLine(l)) == Some(l)
  {
    if l.Declare? {
      var s := RenderLine(l);
      var tail := "{" + l.value + "}";
      assert s == NewCommand + (l.name + "}" + tail);
      var rest := s[|NewCommand|..];
      assert rest == l.name + ['}'] + tail;
      Text.FirstIndexOfJoin(l.name, '}', tail);
      assert rest[..|l.name|] == l.name;
      assert rest[|l.name| + 1..] == tail;
      assert tail[1..|tail| - 1] == l.value;
    }
  }

  lemma RenderLineNoNewline(l: Line)
    requires WellFormed(l)
    ensures NoNewline(RenderLine(l))
  {
    if l.Declare? {
      assert NoNewline(NewCommand);
    }
  }

  /** A document that starts with a complete line reads as that line
      followed by the rest. */
  lemma ParseInfoCons(head: string, tail: string)
    requires NoNewline(head)
    ensures ParseInfo(head + ['\n'] + tail) == Keep(ParseLine(head)) + ParseInfo(tail)
  {
    var text := head + ['\n'] + tail;
    Text.FirstIndexOfJoin(head, '\n', tail);
    assert text[..|head|] == head;
    assert text[|head| + 1..] == tail;
  }

  /** Reading a rendered document gives back its lines. */
  lemma {:induction false} ParseRender(ls: seq<Line>)
    requires forall i :: 0 <= i < |ls| ==> WellFormed(ls[i])
    ensures ParseInfo(Render(ls)) == ls
    decreases |ls|
  {
    if ls != [] {
      var head := RenderLine(ls[0]);
      assert Render(ls) == head + ['\n'] + Render(ls[1..]);
      RenderLineNoNewline(ls[0]);
      ParseInfoCons(head, Render(ls[1..]));
      ParseRenderLine(ls[0]);
      ParseRender(ls[1..]);
      assert ls == [ls[0]] + ls[1..];
    }
  }

  /** Where the scheduling service serves the info file of a slot. */
  const Host: string := "https://kudos.chu.cam.ac.uk"
  const RestRoot: string := Host + "/kudos/rest"
  const InfofileBase: string := RestRoot + "/supervisions/infofile/"

  /** The address of the info file of slot `slotNumber` (one-based) of a
      supervisor's group. */
  function InfofileUrl(supervisorCrsid: string, groupNumber: int, slotNumber: int): (r: string)
    ensures |InfofileBase + supervisorCrsid| < |r|
    ensures r[..|InfofileBase + supervisorCrsid|] == InfofileBase + supervisorCrsid
  {
    InfofileBase + supervisorCrsid + "/" + Decimal.IntToString(groupNumber)
      + "/" + Decimal.IntToString(slotNumber)
  }

  /** Reads an info-file address back into (supervisor, group, slot),
      taking the last two path segments as the numbers. */
  function ParseInfofileUrl(url: string): Option<(string, int, int)> {
    if |url| < |InfofileBase| || url[..|InfofileBase|] != InfofileBase then None
    else
      match Text.SplitLast(url[|InfofileBase|..], '/')
      case None => None
      case Some((left, slotText)) =>
        match Text.SplitLast(left, '/')
        case None => None
        case Some((crsid, groupText)) =>
          match (Decimal.ParseInt(groupText), Decimal.ParseInt(slotText))
          case (Some(g), Some(n)) => Some((crsid, g, n))
          case _ => None
  }

  lemma IntToStringNoSlash(i: int)
    ensures forall k :: 0 <= k < |Decimal.IntToString(i)| ==> Decimal.IntToString(i)[k] != '/'
  {
  }

  /** An info-file address names its supervisor, group and slot, whatever
      characters the supervisor's identifier holds. */
  lemma UrlRoundTrip(supervisorCrsid: string, groupNumber: int, slotNumber: int)
    ensures ParseInfofileUrl(InfofileUrl(supervisorCrsid, groupNumber, slotNumber))
            == Some((supervisorCrsid, groupNumber, slotNumber))
  {
    var g, n := Decimal.IntToString(groupNumber), Decimal.IntToString(slotNumber);
    var url := InfofileUrl(supervisorCrsid, groupNumber, slotNumber);
    assert url == InfofileBase + ((supervisorCrsid + ['/'] + g) + ['/'] + n);
    assert url[|InfofileBase|..] == (supervisorCrsid + ['/'] + g) + ['/'] + n;
    IntToStringNoSlash(groupNumber);
    IntToStringNoSlash(slotNumber);
    Text.SplitLastOfJoin(supervisorCrsid + ['/'] + g, '/', n);
    Text.SplitLastOfJoin(supervisorCrsid, '/', g);
    Decimal.IntRoundTrip(groupNumber);
    Decimal.IntRoundTrip(slotNumber);
  }

  function SupervisorName(s: Supervisor): string {
    s.title + " " + s.firstName + " " + s.lastName
  }

  function StudentName(p: Person): string {
    p.title + " " + p.firstName + " " + p.lastName
  }

  /** The declarations of `create_synthetic_info`: the course of the group's
      first entry, the slot number, empty venue, date and time, the slot's
      info-file address as upload key, the supervisor, the fixed layout
      options, and the student. */
  function SyntheticLines(entry: SupervisionGroup, slotNumber: int, student: Person): (r: seq<Line>)
    requires entry.group != []
    ensures Names(r) == ["svcourse", "svnumber", "svvenue", "svdate", "svtime", "svuploadkey", "",
                         "svrname", "jkfside", "jkfhanded", "", "studentname", "studentemail"]
  {
    [ Declare("svcourse", entry.group[0].course),
      Declare("svnumber", Decimal.IntToString(slotNumber)),
      Declare("svvenue", ""),
      Declare("svdate", ""),
      Declare("svtime", ""),
      Declare("svuploadkey", InfofileUrl(entry.supervisor.crsid, entry.groupNumber, slotNumber)),
      Blank,
      Declare("svrname", SupervisorName(entry.supervisor)),
      Declare("jkfside", "oneside"),
      Declare("jkfhanded", "right"),
      Blank,
      Declare("studentname", StudentName(student)),
      Declare("studentemail", student.crsid) ]
  }

  /** The text `create_synthetic_info` writes to `infofile.tex`. */
  function SyntheticInfo(entry: SupervisionGroup, slotNumber: int, student: Person): (r: string)
    requires entry.group != []
    ensures SingleLineFields(entry, student) ==> ParseInfo(r) == SyntheticLines(entry, slotNumber, student)
  {
    SyntheticReadsBack(entry, slotNumber, student);
    Render(SyntheticLines(entry, slotNumber, student))
  }

  /** No identity or course text of the group and student spans lines. */
  predicate SingleLineFields(entry: SupervisionGroup, student: Person)
    requires entry.group != []
  {
    && NoNewline(entry.group[0].course)
    && NoNewline(entry.supervisor.crsid)
    && NoNewline(SupervisorName(entry.supervisor))
    && NoNewline(StudentName(student))
    && NoNewline(student.crsid)
  }

  lemma InfofileUrlNoNewline(supervisorCrsid: string, groupNumber: int, slotNumber: int)
    requires NoNewline(supervisorCrsid)
    ensures NoNewline(InfofileUrl(supervisorCrsid, groupNumber, slotNumber))
  {
    var g, n := Decimal.IntToString(groupNumber), Decimal.IntToString(slotNumber);
    assert NoNewline(g) && NoNewline(n);
    assert NoNewline(Host);
    assert NoNewline("/kudos/rest");
    assert NoNewline("/supervisions/infofile/");
    assert NoNewline(InfofileBase);
    var a := InfofileBase + supervisorCrsid;
    assert NoNewline(a);
    var b := a + "/" + g;
    assert NoNewline(b);
    assert NoNewline(b + "/" + n);
  }

  /** None of the first `i` lines declares `name`. */
  predicate NotDeclaredBefore(ls: seq<Line>, i: int, name: string)
    requires 0 <= i <= |ls|
  {
    forall j :: 0 <= j < i ==> !(ls[j].Declare? && ls[j].name == name)
  }

  /** The first declaration of `name` is the one `Lookup` finds. */
  lemma {:induction false} LookupAt(ls: seq<Line>, i: int, name: string)
    requires 0 <= i < |ls| && ls[i].Declare? && ls[i].name == name
    requires NotDeclaredBefore(ls, i, name)
    ensures Lookup(ls, name) == Some(ls[i].value)
    decreases i
  {
    if i > 0 {
      LookupAt(ls[1..], i - 1, name);
    }
  }

  /** The synthetic lines render as lines and read back as themselves. */
  lemma SyntheticLinesWellFormed(entry: SupervisionGroup, slotNumber: int, student: Person)
    requires entry.group != []
    requires SingleLineFields(entry, student)
    ensures var ls := SyntheticLines(entry, slotNumber, student);
            forall i :: 0 <= i < |ls| ==> WellFormed(ls[i])
  {
    var ls := SyntheticLines(entry, slotNumber, student);
    SlotLinesWellFormed(ls, entry, slotNumber, student);
    PeopleLinesWellFormed(ls, entry, slotNumber, student);
  }

  lemma SlotLinesWellFormed(ls: seq<Line>, entry: SupervisionGroup, slotNumber: int, student: Person)
    requires entry.group != []
    requires SingleLineFields(entry, student)
    requires ls == SyntheticLines(entry, slotNumber, student)
    ensures forall i :: 0 <= i < 6 ==> WellFormed(ls[i])
  {
    InfofileUrlNoNewline(entry.supervisor.crsid, entry.groupNumber, slotNumber);
    CourseLinesWellFormed(ls[0], ls[1], ls[2], entry.group[0].course, slotNumber);
    TimeLinesWellFormed(ls[3], ls[4], ls[5],
      InfofileUrl(entry.supervisor.crsid, entry.groupNumber, slotNumber));
    forall i | 0 <= i < 6
      ensures WellFormed(ls[i])
    {
      assert i == 0 || i == 1 || i == 2 || i == 3 || i == 4 || i == 5;
    }
  }

  lemma CourseLinesWellFormed(a: Line, b: Line, c: Line, course: string, slotNumber: int)
    requires NoNewline(course)
    requires a == Declare("svcourse", course)
    requires b == Declare("svnumber", Decimal.IntToString(slotNumber))
    requires c == Declare("svvenue", "")
    ensures WellFormed(a) && WellFormed(b) && WellFormed(c)
  {
    assert NoNewline(Decimal.IntToString(slotNumber));
  }

  lemma TimeLinesWellFormed(a: Line, b: Line, c: Line, url: string)
    requires NoNewline(url)
    requires a == Declare("svdate", "") && b == Declare("svtime", "")
    requires c == Declare("svuploadkey", url)
    ensures WellFormed(a) && WellFormed(b) && WellFormed(c)
  {
  }

  lemma PeopleLinesWellFormed(ls: seq<Line>, entry: SupervisionGroup, slotNumber: int, student: Person)
    requires entry.group != []
    requires SingleLineFields(entry, student)
    requires ls == SyntheticLines(entry, slotNumber, student)
    ensures forall i :: 6 <= i < |ls| ==> WellFormed(ls[i])
  {
    assert WellFormed(ls[6]) && WellFormed(ls[10]);
    SupervisorLinesWellFormed(ls[7], ls[8], ls[9], entry.supervisor);
    StudentLinesWellFormed(ls[11], ls[12], student);
    forall i | 6 <= i < |ls|
      ensures WellFormed(ls[i])
    {
      assert i == 6 || i == 7 || i == 8 || i == 9 || i == 10 || i == 11 || i == 12;
    }
  }

  lemma SupervisorLinesWellFormed(a: Line, b: Line, c: Line, s: Supervisor)
    requires NoNewline(SupervisorName(s))
    requires a == Declare("svrname", SupervisorName(s))
    requires b == Declare("jkfside", "oneside") && c == Declare("jkfhanded", "right")
    ensures WellFormed(a) && WellFormed(b) && WellFormed(c)
  {
  }

  lemma StudentLinesWellFormed(a: Line, b: Line, p: Person)
    requires NoNewline(StudentName(p)) && NoNewline(p.crsid)
    requires a == Declare("studentname", StudentName(p)) && b == Declare("studentemail", p.crsid)
    ensures WellFormed(a) && WellFormed(b)
  {
  }

  /** The synthetic document reads back as the lines it was written from. */
  lemma SyntheticReadsBack(entry: SupervisionGroup, slotNumber: int, student: Person)
    requires entry.group != []
    ensures SingleLineFields(entry, student) ==>
      ParseInfo(Render(SyntheticLines(entry, slotNumber, student)))
      == SyntheticLines(entry, slotNumber, student)
  {
    if SingleLineFields(entry, student) {
      SyntheticLinesWellFormed(entry, slotNumber, student);
      ParseRender(SyntheticLines(entry, slotNumber, student));
    }
  }

  /** The name each line declares, empty for a blank line. */
  function Names(ls: seq<Line>): (r: seq<string>)
    ensures |r| == |ls|
    ensures forall j :: 0 <= j < |ls| ==> r[j] == (if ls[j].Declare? then ls[j].name else "")
  {
    seq(|ls|, j requires 0 <= j < |ls| => if ls[j].Declare? then ls[j].name else "")
  }

  /** A name absent from the names of the first `i` lines is not declared
      before line `i`. */
  lemma NotAmongNames(ls: seq<Line>, i: int, name: string)
    requires 0 <= i <= |ls| && name != ""
    requires name !in Names(ls)[..i]
    ensures NotDeclaredBefore(ls, i, name)
  {
    forall j | 0 <= j < i
      ensures !(ls[j].Declare? && ls[j].name == name)
    {
      assert Names(ls)[..i][j] == Names(ls)[j];
    }
  }

  /** `Lookup` finds the declaration of line `i` when no line before it
      declares that name. */
  lemma LookupFirstNamed(ls: seq<Line>, i: int, name: string)
    requires 0 <= i < |ls| && ls[i].Declare? && ls[i].name == name && name != ""
    requires name !in Names(ls)[..i]
    ensures Lookup(ls, name) == Some(ls[i].value)
  {
    NotAmongNames(ls, i, name);
    LookupAt(ls, i, name);
  }

  lemma SlotLookups(ls: seq<Line>, entry: SupervisionGroup, slotNumber: int, student: Person)
    requires entry.group != []
    requires ls == SyntheticLines(entry, slotNumber, student)
    ensures Lookup(ls, "svcourse") == Some(entry.group[0].course)
    ensures Lookup(ls, "svnumber") == Some(Decimal.IntToString(slotNumber))
    ensures Lookup(ls, "svvenue") == Some("")
    ensures Lookup(ls, "svuploadkey")
            == Some(InfofileUrl(entry.supervisor.crsid, entry.groupNumber, slotNumber))
  {
    LookupAt(ls, 0, "svcourse");
    LookupAt(ls, 1, "svnumber");
    LookupAt(ls, 2, "svvenue");
    LookupFirstNamed(ls, 5, "svuploadkey");
  }

  lemma PeopleLookups(ls: seq<Line>, entry: SupervisionGroup, slotNumber: int, student: Person)
    requires entry.group != []
    requires ls == SyntheticLines(entry, slotNumber, student)
    ensures Lookup(ls, "svrname") == Some(SupervisorName(entry.supervisor))
    ensures Lookup(ls, "studentname") == Some(StudentName(student))
    ensures Lookup(ls, "studentemail") == Some(student.crsid)
  {
    SupervisorLookup(ls, entry, slotNumber, student);
    StudentLookups(ls, entry, slotNumber, student);
  }

  lemma SupervisorLookup(ls: seq<Line>, entry: SupervisionGroup, slotNumber: int, student: Person)
    requires entry.group != []
    requires ls == SyntheticLines(entry, slotNumber, student)
    ensures Lookup(ls, "svrname") == Some(SupervisorName(entry.supervisor))
  {
    LookupFirstNamed(ls, 7, "svrname");
  }

  lemma StudentLookups(ls: seq<Line>, entry: SupervisionGroup, slotNumber: int, student: Person)
    requires entry.group != []
    requires ls == SyntheticLines(entry, slotNumber, student)
    ensures Lookup(ls, "studentname") == Some(StudentName(student))
    ensures Lookup(ls, "studentemail") == Some(student.crsid)
  {
    LookupFirstNamed(ls, 11, "studentname");
    LookupFirstNamed(ls, 12, "studentemail");
  }

  /** Read back, the synthetic document declares the one-based slot number
      as `\\svnumber` and the slot's info-file address as `\\svuploadkey`,
      names the course, the supervisor and the student, and leaves the
      venue empty. */
  lemma SyntheticDeclarations(entry: SupervisionGroup, slotNumber: int, student: Person)
    requires entry.group != []
    requires SingleLineFields(entry, student)
    ensures var text := SyntheticInfo(entry, slotNumber, student);
      && MacroValue(text, "svnumber") == Some(Decimal.IntToString(slotNumber))
      && MacroValue(text, "svuploadkey")
           == Some(InfofileUrl(entry.supervisor.crsid, entry.groupNumber, slotNumber))
      && MacroValue(text, "svcourse") == Some(entry.group[0].course)
      && MacroValue(text, "svvenue") == Some("")
      && MacroValue(text, "svrname") == Some(SupervisorName(entry.supervisor))
      && MacroValue(text, "studentname") == Some(StudentName(student))
      && MacroValue(text, "studentemail") == Some(student.crsid)
  {
    var ls := SyntheticLines(entry, slotNumber, student);
    SyntheticReadsBack(entry, slotNumber, student);
    SlotLookups(ls, entry, slotNumber, student);
    PeopleLookups(ls, entry, slotNumber, student);
  }

  /** The slot number a synthetic document declares reads back as the slot
      number it was written for. */
  lemma SyntheticSlotNumberReadsBack(entry: SupervisionGroup, slotNumber: int, student: Person)
    requires entry.group != []
    requires SingleLineFields(entry, student)
    ensures var v := MacroValue(SyntheticInfo(entry, slotNumber, student), "svnumber");
            v.Some? && Decimal.ParseInt(v.value) == Some(slotNumber)
  {
    SyntheticDeclarations(entry, slotNumber, student);
    Decimal.IntRoundTrip(slotNumber);
  }
}

=== FILE: recent.dfy ===
/** The recent-submissions view: submissions that started within the last
    four weeks, listed oldest first. */
module Recent {
  import opened DateTime
  import opened Records
  import Seqs

  /** How far back the view reaches. */
  const Window: int := 4 * Week

  /** The instant a submission started, as the normaliser reads it. */
  function StartOf(s: Submission): int {
    ParseDateTime(s.start)
  }

  predicate IsRecent(s: Submission, now: int) {
    StartOf(s) > now - Window
  }

  /** `filter_recent_supervisions`: the submissions that started strictly
      after four weeks before `now`, in their original order. */
  function FilterRecent(subs: seq<Submission>, now: int): (r: seq<Submission>)
    ensures Seqs.IsSubsequence(r, subs)
    ensures forall s :: s in r <==> s in subs && ParseDateTime(s.start) > now - 4 * Week
    ensures forall s :: multiset(r)[s] == if IsRecent(s, now) then multiset(subs)[s] else 0
  {
    Seqs.Filter(subs, s => IsRecent(s, now))
  }

  /** The sort of `display_supervisions`: oldest start first, Python's
      stable `sorted` keyed on the normalised start. */
  function SortByStart(subs: seq<Submission>): (r: seq<Submission>)
    ensures Seqs.SortedBy(r, StartOf)
    ensures |r| == |subs|
  {
    Seqs.SortByKey(subs, StartOf)
  }

  /** The listing holds the same submissions, each as often as before. */
  lemma SortByStartPermutes(subs: seq<Submission>)
    ensures multiset(SortByStart(subs)) == multiset(subs)
  {
    Seqs.SortByKeyPermutes(subs, StartOf);
  }

  /** Submissions that started at the same instant keep their order. */
  lemma SortByStartStable(subs: seq<Submission>, t: int)
    ensures Seqs.WithKey(SortByStart(subs), StartOf, t) == Seqs.WithKey(subs, StartOf, t)
  {
    Seqs.SortByKeyStable(subs, StartOf, t);
  }

  /** Any listing sorted by start that keeps same-instant submissions in
      their order is this one, so the model agrees with `sorted`. */
  lemma SortByStartIsSorted(subs: seq<Submission>, listing: seq<Submission>)
    requires Seqs.SortedBy(listing, StartOf)
    requires forall t :: Seqs.WithKey(listing, StartOf, t) == Seqs.WithKey(subs, StartOf, t)
    ensures listing == SortByStart(subs)
  {
    forall t
      ensures Seqs.WithKey(listing, StartOf, t) == Seqs.WithKey(SortByStart(subs), StartOf, t)
    {
      SortByStartStable(subs, t);
    }
    Seqs.SortedStableUnique(listing, SortByStart(subs), StartOf);
  }

  /** A submission whose start cannot be parsed is always recent. */
  lemma MalformedIsRecent(s: Submission, now: int)
    requires s.start.ParseFailed? && now <= MaxWall
    ensures IsRecent(s, now)
  {
  }

  /** A submission that started exactly four weeks ago is no longer shown. */
  lemma WindowIsOpen(s: Submission, now: int)
    requires StartOf(s) == now - 4 * Week
    ensures !IsRecent(s, now)
  {
  }

  /** In the listing, a submission with an unparseable start is followed
      only by submissions at the sentinel or later; among those with a
      UTC or eastern offset only other unparseable ones can follow it. */
  lemma MalformedListedLate(subs: seq<Submission>, i: int, j: int)
    requires 0 <= i < j < |SortByStart(subs)|
    requires SortByStart(subs)[i].start.ParseFailed?
    ensures StartOf(SortByStart(subs)[j]) >= Sentinel
    ensures var p := SortByStart(subs)[j].start;
      (p.Parsed? ==> p.offset.None? || p.offset.value >= 0) ==> StartOf(SortByStart(subs)[j]) == Sentinel
  {
    var p := SortByStart(subs)[j].start;
    if p.Parsed? ==> p.offset.None? || p.offset.value >= 0 {
      SentinelBoundsUtcAndEast(p);
    }
  }

  /** The view the program shows: the recent submissions, oldest first. */
  function RecentListing(subs: seq<Submission>, now: int): (r: seq<Submission>)
    ensures Seqs.SortedBy(r, StartOf)
  {
    SortByStart(FilterRecent(subs, now))
  }

  /** The view shows exactly the recent submissions, each as often as it
      was returned. */
  lemma RecentListingContents(subs: seq<Submission>, now: int)
    ensures forall s :: multiset(RecentListing(subs, now))[s]
                        == if IsRecent(s, now) then multiset(subs)[s] else 0
  {
    SortByStartPermutes(FilterRecent(subs, now));
  }
}

=== FILE: records.dfy ===
/** The records the scheduling service returns, reduced to the fields the
    booking logic reads. */
module Records {
  import opened DateTime

  /** A `supervisor` object. `name` is the display name; the other three name
      parts build the supervisor's full name in the info document. */
  datatype Supervisor = Supervisor(
    name: string, title: string, firstName: string, lastName: string, crsid: string)

  /** The `user` object of a supervisee, which identifies a student. */
  datatype Person = Person(title: string, firstName: string, lastName: string, crsid: string)

  /** One entry of a group's `group` list: the programme and course a
      member of the group is supervised for. */
  datatype GroupEntry = GroupEntry(tripos: string, course: string, subject: string)

  /** One entry of a group's `supervisees` list. */
  datatype Supervisee = Supervisee(user: Person)

  /** A scheduled booking; `startTime` is what parsing its start string gave. */
  datatype Booking = Booking(duration: int, startTime: IsoParse, venue: string)

  /** A supervision group as `getSVAssignments` returns it. */
  datatype SupervisionGroup = SupervisionGroup(
    groupNumber: int,
    supervisor: Supervisor,
    group: seq<GroupEntry>,
    bookings: seq<Booking>,
    minutesAllocated: int,
    supervisees: seq<Supervisee>)

  /** A recently uploaded or marked submission from `upload-marked`. */
  datatype Submission = Submission(
    uuid: string, start: IsoParse, crsid: string, supervisorCrsid: string,
    groupNumber: int, svNumber: int, failed: bool)
}

=== FILE: scenarios.dfy ===
/** Worked examples: concrete groups and the outcomes the model gives them. */
module Scenarios {
  import opened Wrappers
  import opened DateTime
  import opened Records
  import opened Eligibility
  import opened Availability
  import opened Courses
  import opened Selector
  import opened FileSystem
  import opened BookingStep
  import InfoFile
  import Decimal
  import BookingFacts

  const Alice: Person := Person("Ms", "Alice", "Smith", "as123")
  const Tutor: Supervisor := Supervisor("Dr B Jones", "Dr", "Bob", "Jones", "bj45")
  const Algorithms: GroupEntry := GroupEntry("CST", "Algorithms", "Computer Science")

  function Group(bookings: seq<Booking>, minutes: int): SupervisionGroup {
    SupervisionGroup(7, Tutor, [Algorithms], bookings, minutes, [Supervisee(Alice)])
  }

  function BookingAt(duration: int, start: int): Booking
    requires 0 <= start <= MaxWall
  {
    Booking(duration, Parsed(start, None), "")
  }

  /** Capacity left: 180 minutes allocated, 60 booked, the tripos matches. */
  lemma CapacityLeftIncluded(now: int)
    ensures Eligible(Group([BookingAt(60, 0)], 180), "CST", now)
  {
  }

  /** Fully booked with every booking past: dropped; with one still to come:
      kept. */
  lemma FullGroups()
    ensures !Eligible(Group([BookingAt(60, 100), BookingAt(60, 200)], 120), "CST", 300)
    ensures Eligible(Group([BookingAt(60, 100), BookingAt(60, 400)], 120), "CST", 300)
  {
  }

  /** Another tripos's group is dropped whatever its capacity. */
  lemma OtherTriposDropped(now: int)
    ensures !Eligible(Group([], 180), "NST", now)
  {
  }

  /** Two bookings of 60 minutes out of 180 give three slots; one of 60 out
      of 100 gives one, the 40 spare minutes being dropped. */
  lemma SlotCounts()
    ensures AvailableSlots(Group([BookingAt(60, 0), BookingAt(60, 0)], 180)) == 3
    ensures AvailableSlots(Group([BookingAt(60, 0)], 100)) == 1
  {
  }

  /** A group of 120 minutes with one future booking of 60, for a student
      of the tripos, with a single course entry. */
  predicate EndToEndGroup(g: SupervisionGroup, tripos: string, now: int) {
    && g.minutesAllocated == 120
    && |g.bookings| == 1 && g.bookings[0].duration == 60
    && ParseDateTime(g.bookings[0].startTime) > now
    && |g.group| == 1 && g.group[0].tripos == tripos
  }

  /** Such a group is kept and offers a real slot and a synthetic one. */
  lemma EndToEndEligible(g: SupervisionGroup, tripos: string, now: int)
    requires EndToEndGroup(g, tripos, now)
    ensures Eligible(g, tripos, now)
    ensures AvailableSlots(g) == 2
  {
    assert g.bookings[1..] == [];
    assert TotalDuration(g.bookings) == 60;
  }

  /** With that group alone on offer, a supervisee choosing course 1 and
      then slot 2 has the booking step run on the synthetic second slot,
      with no line left to answer its question. */
  lemma EndToEndSelection(g: SupervisionGroup, tripos: string, now: int, fs: Fs,
                          readInt: string -> Option<int>, cfg: Config, svc: Services)
    requires EndToEndGroup(g, tripos, now)
    requires readInt("1") == Some(1) && readInt("2") == Some(2)
    requires FindStudent(g.supervisees, cfg.crsid).Some?
    ensures Select(fs, [g], ["1", "2"], readInt, cfg, svc)
         == Booked(KeyOf(g.group[0]), g, 1, true, FetchBooking(fs, g, 1, true, None, cfg, svc))
  {
    SingleGroupCourse(g, tripos, now);
    var inputs := Numbers(["1", "2"], readInt);
    assert inputs[1..] == [Some(2)];
    SlotStageBooks(fs, KeyOf(g.group[0]), g, ["1", "2"], inputs, 1, 1, cfg, svc);
  }

  /** For that group, a user who is not among its supervisees has every
      slot answer refused, and the dialogue lasts until the console ends. */
  lemma EndToEndNonSupervisee(g: SupervisionGroup, tripos: string, now: int, fs: Fs,
                              readInt: string -> Option<int>, cfg: Config, svc: Services)
    requires EndToEndGroup(g, tripos, now)
    requires readInt("1") == Some(1)
    requires FindStudent(g.supervisees, cfg.crsid).None?
    ensures Select(fs, [g], ["1", "1", "1"], readInt, cfg, svc) == InputEnded
  {
    SingleGroupCourse(g, tripos, now);
  }

  /** The course list of that group alone is its one course, and the group
      is the one booked with. */
  lemma SingleGroupCourse(g: SupervisionGroup, tripos: string, now: int)
    requires EndToEndGroup(g, tripos, now)
    ensures AvailableSlots(g) == 2
    ensures UniqueCourses([g]) == [KeyOf(g.group[0])]
    ensures SelectedGroup([g], KeyOf(g.group[0])) == g
  {
    EndToEndEligible(g, tripos, now);
    var courses := UniqueCourses([g]);
    var key := KeyOf(g.group[0]);
    assert key in courses;
    assert forall y :: y in courses ==> y == key by {
      forall y | y in courses
        ensures y == key
      {
        var i, j :| 0 <= i < |[g]| && 0 <= j < |[g][i].group| && KeyOf([g][i].group[j]) == y;
        assert [g][i].group[j] == g.group[0];
      }
    }
    AscendingUnique(courses, [key]);
    assert SelectedGroup([g], key) == g;
  }

  /** Setting the slot up in a tree with the template and no slot directory
      writes a synthetic info file whose upload key is the slot-2 address
      of the group's supervisor and group number, and whose slot number
      is 2. */
  lemma EndToEndSynthetic(g: SupervisionGroup, fs: Fs, cfg: Config, answer: Option<string>, svc: Services)
    requires g.group != [] && Consistent(fs) && IsFile(fs, TemplatePath)
    requires SlotDir(g, 1) !in fs
    requires forall q :: q in Parents(SlotDir(g, 1)) && q in fs ==> fs[q].Directory?
    requires FindStudent(g.supervisees, cfg.crsid).Some?
    requires InfoFile.SingleLineFields(g, FindStudent(g.supervisees, cfg.crsid).value)
    ensures var r := FetchBooking(fs, g, 1, true, answer, cfg, svc);
      var info := Join(SlotDir(g, 1), InfoFileName);
      && r.status == Initialised(Synthesised)
      && IsFile(r.fs, info)
      && InfoFile.MacroValue(r.fs[info].content, "svuploadkey")
         == Some(InfoFile.InfofileUrl(g.supervisor.crsid, g.groupNumber, 2))
      && InfoFile.MacroValue(r.fs[info].content, "svnumber") == Some("2")
  {
    BookingFacts.NewDirectorySetUp(fs, g, 1, true, answer, cfg, svc);
    BookingFacts.SyntheticMatchesRemote(fs, g, 1, answer, cfg, svc);
    assert Decimal.IntToString(2) == "2";
  }
}

=== FILE: selector.dfy ===
/** The interactive choice of a course and a slot, and the booking step it
    hands the chosen slot to. The console is the sequence of lines the user
    types, with `readInt` standing for what `int` makes of a line (`None`
    when it raises). Running out of lines ends the dialogue. */
module Selector {
  import opened Wrappers
  import opened Records
  import opened Courses
  import opened Availability
  import opened FileSystem
  import opened BookingStep
  import Seqs

  /** What one answer to the course prompt means. */
  datatype CourseAnswer = PickCourse(key: CourseKey) | ViewMarked | AskCourseAgain

  /** The course prompt lists the courses from 1 and offers "view marked
      work" as the number after the last course. */
  function CourseChoice(courses: seq<CourseKey>, input: Option<int>): (r: CourseAnswer)
    ensures r.PickCourse? <==> input.Some? && 1 <= input.value <= |courses|
    ensures r.PickCourse? ==> r.key == courses[input.value - 1]
    ensures r == ViewMarked <==> input == Some(|courses| + 1)
  {
    match input
    case None => AskCourseAgain
    case Some(n) =>
      var courseIdx := n - 1;
      if 0 <= courseIdx < |courses| then PickCourse(courses[courseIdx])
      else if courseIdx == |courses| then ViewMarked
      else AskCourseAgain
  }

  /** `any(g['course'] == course for g in entries)`. */
  function AnyOfCourse(entries: seq<GroupEntry>, course: string): (r: bool)
    ensures r <==> exists i :: 0 <= i < |entries| && entries[i].course == course
  {
    Seqs.Any(entries, (e: GroupEntry) => e.course == course)
  }

  /** The groups with an entry for the course of that name, whatever its
      subject and tripos, in their original order. */
  function CourseSupervisions(groups: seq<SupervisionGroup>, course: string)
    : (r: seq<SupervisionGroup>)
    ensures Seqs.IsSubsequence(r, groups)
    ensures forall g :: g in r <==> g in groups && AnyOfCourse(g.group, course)
  {
    Seqs.Filter(groups, (g: SupervisionGroup) => AnyOfCourse(g.group, course))
  }

  /** Every listed course has a group to book with, so taking the first of
      them cannot fail. */
  lemma ListedCourseHasGroup(groups: seq<SupervisionGroup>, key: CourseKey)
    requires key in UniqueCourses(groups)
    ensures CourseSupervisions(groups, key.course) != []
  {
    var i, j :| 0 <= i < |groups| && 0 <= j < |groups[i].group| && KeyOf(groups[i].group[j]) == key;
    assert AnyOfCourse(groups[i].group, key.course);
    assert groups[i] in CourseSupervisions(groups, key.course);
  }

  /** The group the slot is booked with: the first group offering the course. */
  function SelectedGroup(groups: seq<SupervisionGroup>, key: CourseKey): (g: SupervisionGroup)
    requires key in UniqueCourses(groups)
    ensures g in groups && AnyOfCourse(g.group, key.course)
  {
    ListedCourseHasGroup(groups, key);
    CourseSupervisions(groups, key.course)[0]
  }

  /** What one answer to the slot prompt means. */
  datatype SlotAnswer = PickSlot(slotIdx: int, synthetic: bool) | AskSlotAgain

  /** The slot prompt accepts 1 to the number of available slots; a slot
      past the real bookings is synthetic. */
  function SlotChoice(g: SupervisionGroup, input: Option<int>): (r: SlotAnswer)
    ensures r.PickSlot? <==> input.Some? && 1 <= input.value <= AvailableSlots(g)
    ensures r.PickSlot? ==> r.slotIdx == input.value - 1
    ensures r.PickSlot? ==> (r.synthetic <==> r.slotIdx >= |g.bookings|)
  {
    match input
    case None => AskSlotAgain
    case Some(n) =>
      var slotIdx := n - 1;
      if 0 <= slotIdx < AvailableSlots(g) then PickSlot(slotIdx, slotIdx >= |g.bookings|)
      else AskSlotAgain
  }

  /** How the dialogue ends: with the choice to view marked work, with the
      booking step run on the chosen slot (returning, or raising an
      exception that ends the program), or with the console ending while a
      prompt waits. */
  datatype Selection =
    | MarkedWork
    | Booked(course: CourseKey, group: SupervisionGroup, slotIdx: int, synthetic: bool,
             outcome: Outcome)
    | InputEnded

  predicate CourseDecided(courses: seq<CourseKey>, input: Option<int>) {
    CourseChoice(courses, input) != AskCourseAgain
  }

  /** `CourseDecided` as a test of one answer. */
  function CourseTest(courses: seq<CourseKey>): Option<int> -> bool {
    i => CourseDecided(courses, i)
  }

  predicate SlotDecided(g: SupervisionGroup, input: Option<int>) {
    SlotChoice(g, input).PickSlot?
  }

  /** What `int` makes of each line. */
  function Numbers(lines: seq<string>, readInt: string -> Option<int>): (r: seq<Option<int>>)
    ensures |r| == |lines|
    ensures forall i :: 0 <= i < |lines| ==> r[i] == readInt(lines[i])
  {
    seq(|lines|, i requires 0 <= i < |lines| => readInt(lines[i]))
  }

  /** The line after line `at`, which the booking step reads when it asks
      whether to compile and upload. */
  function LineAfter(lines: seq<string>, at: nat): Option<string> {
    if at + 1 < |lines| then Some(lines[at + 1]) else None
  }

  /** The slot prompt for group `g` from line `from` on. An accepted slot
      is handed to the booking step, whose refusal of a user who is not a
      supervisee is a `ValueError` the loop catches: it asks again. Since
      every later slot is refused the same way, such a user never leaves
      the loop before the console ends. */
  function SlotStage(fs: Fs, key: CourseKey, g: SupervisionGroup, lines: seq<string>,
                     inputs: seq<Option<int>>, from: nat, cfg: Config, svc: Services)
    : (r: Selection)
    requires |inputs| == |lines| && from <= |lines|
    ensures r.Booked? <==>
      FindStudent(g.supervisees, cfg.crsid).Some?
      && exists k :: from <= k < |inputs| && SlotDecided(g, inputs[k])
    ensures !r.MarkedWork?
    ensures r.Booked? ==>
      && r.course == key && r.group == g
      && 0 <= r.slotIdx < AvailableSlots(g)
      && (r.synthetic <==> r.slotIdx >= |g.bookings|)
      && r.outcome.status != Raised(StudentNotFound)
  {
    match Seqs.FirstIndex(inputs[from..], i => SlotDecided(g, i))
    case None =>
      assert forall k :: from <= k < |inputs| ==> inputs[k] == inputs[from..][k - from];
      InputEnded
    case Some(s) =>
      assert forall k :: from <= k <= from + s ==> inputs[k] == inputs[from..][k - from];
      if FindStudent(g.supervisees, cfg.crsid).None? then InputEnded
      else
        var slot := SlotChoice(g, inputs[from + s]);
        Booked(key, g, slot.slotIdx, slot.synthetic,
               FetchBooking(fs, g, slot.slotIdx, slot.synthetic, LineAfter(lines, from + s), cfg, svc))
  }

  /** The slot stage books the first accepted slot of a supervisee. */
  lemma SlotStageBooks(fs: Fs, key: CourseKey, g: SupervisionGroup, lines: seq<string>,
                       inputs: seq<Option<int>>, from: nat, m: nat, cfg: Config, svc: Services)
    requires |inputs| == |lines| && from <= m < |lines|
    requires FindStudent(g.supervisees, cfg.crsid).Some?
    requires SlotDecided(g, inputs[m])
    requires forall k :: from <= k < m ==> !SlotDecided(g, inputs[k])
    ensures var slot := SlotChoice(g, inputs[m]);
      SlotStage(fs, key, g, lines, inputs, from, cfg, svc)
      == Booked(key, g, slot.slotIdx, slot.synthetic,
                FetchBooking(fs, g, slot.slotIdx, slot.synthetic, LineAfter(lines, m), cfg, svc))
  {
    var p := (i: Option<int>) => SlotDecided(g, i);
    assert forall k :: from <= k <= m ==> inputs[k] == inputs[from..][k - from];
    Seqs.FirstIndexAt(inputs[from..], p, m - from);
  }

  /** With no accepted slot, or for a user who is not a supervisee, the
      slot stage lasts until the console ends. */
  lemma SlotStageEnds(fs: Fs, key: CourseKey, g: SupervisionGroup, lines: seq<string>,
                      inputs: seq<Option<int>>, from: nat, cfg: Config, svc: Services)
    requires |inputs| == |lines| && from <= |lines|
    requires FindStudent(g.supervisees, cfg.crsid).None?
             || forall k :: from <= k < |inputs| ==> !SlotDecided(g, inputs[k])
    ensures SlotStage(fs, key, g, lines, inputs, from, cfg, svc) == InputEnded
  {
  }

  /** Line `c` is the first answer the course prompt accepts. */
  predicate FirstCourseAt(groups: seq<SupervisionGroup>, lines: seq<string>,
                          readInt: string -> Option<int>, c: int)
  {
    && 0 <= c < |lines|
    && CourseDecided(UniqueCourses(groups), readInt(lines[c]))
    && forall j :: 0 <= j < c ==> !CourseDecided(UniqueCourses(groups), readInt(lines[j]))
  }

  /** The way the dialogue ended was decided by the first answer the course
      prompt accepted. */
  ghost predicate FirstCourseAnswer(groups: seq<SupervisionGroup>, lines: seq<string>,
                              readInt: string -> Option<int>, r: Selection)
  {
    exists c :: 0 <= c < |lines| && FirstCourseAt(groups, lines, readInt, c)
      && CourseChoice(UniqueCourses(groups), readInt(lines[c]))
         == (if r.Booked? then PickCourse(r.course) else ViewMarked)
  }

  /** The dialogue: answers to the course prompt until one is accepted, then
      the slot prompt for the first group offering that course. */
  function Select(fs: Fs, groups: seq<SupervisionGroup>, lines: seq<string>,
                  readInt: string -> Option<int>, cfg: Config, svc: Services)
    : (r: Selection)
    ensures r.Booked? ==>
      && r.course in UniqueCourses(groups)
      && r.group == SelectedGroup(groups, r.course)
      && 0 <= r.slotIdx < AvailableSlots(r.group)
      && (r.synthetic <==> r.slotIdx >= |r.group.bookings|)
      && FindStudent(r.group.supervisees, cfg.crsid).Some?
      && r.outcome.status != Raised(StudentNotFound)
      && r.outcome.status != Raised(NoGroupEntry)
    ensures r.MarkedWork? ==>
      exists i :: 0 <= i < |lines| && readInt(lines[i]) == Some(|UniqueCourses(groups)| + 1)
    ensures !r.InputEnded? ==> FirstCourseAnswer(groups, lines, readInt, r)
  {
    var inputs := Numbers(lines, readInt);
    var courses := UniqueCourses(groups);
    match Seqs.FirstIndex(inputs, CourseTest(courses))
    case None => InputEnded
    case Some(c) =>
      assert FirstCourseAt(groups, lines, readInt, c);
      match CourseChoice(courses, inputs[c])
      case ViewMarked => MarkedWork
      case PickCourse(key) =>
        var g := SelectedGroup(groups, key);
        ListedCourseHasGroup(groups, key);
        SlotStage(fs, key, g, lines, inputs, c + 1, cfg, svc)
  }

  /** A user who is not a supervisee of the group offering the chosen
      course never gets past the slot prompt: the dialogue ends only when
      the console does. */
  lemma NonSuperviseeNeverBooks(fs: Fs, groups: seq<SupervisionGroup>, lines: seq<string>,
                                readInt: string -> Option<int>, cfg: Config, svc: Services,
                                c: int, key: CourseKey)
    requires FirstCourseAt(groups, lines, readInt, c)
    requires CourseChoice(UniqueCourses(groups), readInt(lines[c])) == PickCourse(key)
    requires FindStudent(SelectedGroup(groups, key).supervisees, cfg.crsid).None?
    ensures Select(fs, groups, lines, readInt, cfg, svc) == InputEnded
  {
  }

  /** Conversely, a supervisee of the group offering the chosen course is
      booked on the first slot answer accepted after the course answer, and
      the booking step reads the line after that answer. */
  lemma SupervisorProgress(fs: Fs, groups: seq<SupervisionGroup>, lines: seq<string>,
                           readInt: string -> Option<int>, cfg: Config, svc: Services,
                           c: int, key: CourseKey, m: int)
    requires FirstCourseAt(groups, lines, readInt, c)
    requires CourseChoice(UniqueCourses(groups), readInt(lines[c])) == PickCourse(key)
    requires FindStudent(SelectedGroup(groups, key).supervisees, cfg.crsid).Some?
    requires c < m < |lines| && SlotDecided(SelectedGroup(groups, key), readInt(lines[m]))
    requires forall k :: c < k < m ==> !SlotDecided(SelectedGroup(groups, key), readInt(lines[k]))
    ensures var g := SelectedGroup(groups, key);
      var slot := SlotChoice(g, readInt(lines[m]));
      Select(fs, groups, lines, readInt, cfg, svc)
      == Booked(key, g, slot.slotIdx, slot.synthetic,
                FetchBooking(fs, g, slot.slotIdx, slot.synthetic, LineAfter(lines, m), cfg, svc))
  {
    var inputs := Numbers(lines, readInt);
    SelectPicksCourse(fs, groups, lines, readInt, cfg, svc, c, key);
    SlotStageBooks(fs, key, SelectedGroup(groups, key), lines, inputs, c + 1, m, cfg, svc);
  }

  /** Once line `c` picks a course, the dialogue is the slot stage of that
      course's group from the next line on. */
  lemma SelectPicksCourse(fs: Fs, groups: seq<SupervisionGroup>, lines: seq<string>,
                          readInt: string -> Option<int>, cfg: Config, svc: Services,
                          c: int, key: CourseKey)
    requires FirstCourseAt(groups, lines, readInt, c)
    requires CourseChoice(UniqueCourses(groups), readInt(lines[c])) == PickCourse(key)
    ensures Select(fs, groups, lines, readInt, cfg, svc)
         == SlotStage(fs, key, SelectedGroup(groups, key), lines, Numbers(lines, readInt), c + 1, cfg, svc)
  {
    var courses := UniqueCourses(groups);
    Seqs.FirstIndexAt(Numbers(lines, readInt), CourseTest(courses), c);
    SelectAfterCourse(fs, groups, lines, readInt, cfg, svc, c, key);
  }

  /** The step of `SelectPicksCourse` that unfolds the dialogue once the
      first decided course answer is known. */
  lemma SelectAfterCourse(fs: Fs, groups: seq<SupervisionGroup>, lines: seq<string>,
                          readInt: string -> Option<int>, cfg: Config, svc: Services,
                          c: nat, key: CourseKey)
    requires c < |lines|
    requires Seqs.FirstIndex(Numbers(lines, readInt), CourseTest(UniqueCourses(groups))) == Some(c)
    requires CourseChoice(UniqueCourses(groups), Numbers(lines, readInt)[c]) == PickCourse(key)
    ensures Select(fs, groups, lines, readInt, cfg, svc)
         == SlotStage(fs, key, SelectedGroup(groups, key), lines, Numbers(lines, readInt), c + 1, cfg, svc)
  {
  }

  /** The first group of the list offering the course is the one booked:
      no group before it has an entry of that course name. */
  lemma SelectedGroupIsFirst(groups: seq<SupervisionGroup>, key: CourseKey)
    requires key in UniqueCourses(groups)
    ensures exists i :: (0 <= i < |groups| && groups[i] == SelectedGroup(groups, key)
      && forall j :: 0 <= j < i ==> !AnyOfCourse(groups[j].group, key.course))
  {
    ListedCourseHasGroup(groups, key);
    var p := (g: SupervisionGroup) => AnyOfCourse(g.group, key.course);
    Seqs.FilterHead(groups, p);
    var i := Seqs.FirstIndex(groups, p).value;
    assert groups[i] == SelectedGroup(groups, key);
  }

  /** Only the course name decides the group: two listed courses of the same
      name, under different subjects or triposes, book with the same group. */
  lemma CourseNameDecides(groups: seq<SupervisionGroup>, k1: CourseKey, k2: CourseKey)
    requires k1 in UniqueCourses(groups) && k2 in UniqueCourses(groups)
    requires k1.course == k2.course
    ensures SelectedGroup(groups, k1) == SelectedGroup(groups, k2)
  {
  }

  /** Reads answers to the course prompt until one is accepted; `n` is the
      line of that answer, or the number of lines when none is. */
  method CoursePrompt(courses: seq<CourseKey>, inputs: seq<Option<int>>) returns (n: nat)
    ensures n <= |inputs|
    ensures n == |inputs| <==> Seqs.FirstIndex(inputs, CourseTest(courses)).None?
    ensures n < |inputs| ==> Seqs.FirstIndex(inputs, CourseTest(courses)) == Some(n)
  {
    n := 0;
    while n < |inputs| && !CourseDecided(courses, inputs[n])
      invariant 0 <= n <= |inputs|
      invariant forall k :: 0 <= k < n ==> !CourseDecided(courses, inputs[k])
    {
      n := n + 1;
    }
  }

  /** Reads answers to the slot prompt for group `g`, from line `from` on,
      handing each accepted one to the booking step; a refusal because the
      user is not a supervisee prints a message and asks again, anything
      else the step does ends the dialogue. */
  method SlotPrompt(fs: Fs, key: CourseKey, g: SupervisionGroup, lines: seq<string>,
                    inputs: seq<Option<int>>, from: nat, cfg: Config, svc: Services)
    returns (r: Selection)
    requires |inputs| == |lines| && from <= |lines|
    ensures r == SlotStage(fs, key, g, lines, inputs, from, cfg, svc)
  {
    var m := from;
    while m < |inputs|
      invariant from <= m <= |inputs|
      invariant FindStudent(g.supervisees, cfg.crsid).Some? ==>
        forall k :: from <= k < m ==> !SlotDecided(g, inputs[k])
    {
      var slot := SlotChoice(g, inputs[m]);
      if slot.PickSlot? {
        var outcome := FetchBooking(fs, g, slot.slotIdx, slot.synthetic, LineAfter(lines, m), cfg, svc);
        if outcome.status != Raised(StudentNotFound) {
          SlotStageBooks(fs, key, g, lines, inputs, from, m, cfg, svc);
          return Booked(key, g, slot.slotIdx, slot.synthetic, outcome);
        }
      }
      m := m + 1;
    }
    SlotStageEnds(fs, key, g, lines, inputs, from, cfg, svc);
    r := InputEnded;
  }

  /** `select_supervision_slot` as the console program runs it: two prompt
      loops that repeat until an answer is accepted, the second one also
      running the booking step. */
  method SelectSupervisionSlot(fs: Fs, groups: seq<SupervisionGroup>, lines: seq<string>,
                               readInt: string -> Option<int>, cfg: Config, svc: Services)
    returns (r: Selection)
    ensures r == Select(fs, groups, lines, readInt, cfg, svc)
  {
    var inputs := Numbers(lines, readInt);
    var courses := UniqueCourses(groups);
    var n := CoursePrompt(courses, inputs);
    if n == |inputs| {
      return InputEnded;
    }
    var answer := CourseChoice(courses, inputs[n]);
    if answer == ViewMarked {
      return MarkedWork;
    }
    var g := SelectedGroup(groups, answer.key);
    r := SlotPrompt(fs, answer.key, g, lines, inputs, n + 1, cfg, svc);
  }
}

=== FILE: seqs.dfy ===
/** Order-preserving filtering and stable sorting of sequences, the two
    list operations the program relies on: a list comprehension with a
    condition, and Python's `sorted` with a key, which is stable. */
module Seqs {
  import opened Wrappers

  /** `r` can be obtained from `s` by deleting elements. */
  ghost predicate IsSubsequence<T>(r: seq<T>, s: seq<T>)
    decreases |s|
  {
    && |r| <= |s|
    && (|r| == 0
        || (r[0] == s[0] && IsSubsequence(r[1..], s[1..]))
        || IsSubsequence(r, s[1..]))
  }

  /** The elements of `s` that satisfy `keep`, in their original order. */
  function Filter<T(==,!new)>(s: seq<T>, keep: T -> bool): (r: seq<T>)
    ensures IsSubsequence(r, s)
    ensures forall x :: multiset(r)[x] == if keep(x) then multiset(s)[x] else 0
    ensures forall x :: x in r <==> x in s && keep(x)
    decreases |s|
  {
    if s == [] then []
    else
      var rest := Filter(s[1..], keep);
      assert s == [s[0]] + s[1..];
      if keep(s[0]) then
        assert ([s[0]] + rest)[1..] == rest;
        [s[0]] + rest
      else rest
  }

  /** Python's `any` over a generator: some element satisfies `p`. */
  function Any<T>(s: seq<T>, p: T -> bool): (r: bool)
    ensures r <==> exists i :: 0 <= i < |s| && p(s[i])
    decreases |s|
  {
    if s == [] then false
    else if p(s[0]) then true
    else
      var rest := Any(s[1..], p);
      assert forall i :: 0 < i < |s| ==> s[i] == s[1..][i - 1];
      rest
  }

  /** The position of the first element of `s` satisfying `p`, if any. */
  function FirstIndex<T>(s: seq<T>, p: T -> bool): (r: Option<nat>)
    ensures r.Some? ==> r.value < |s| && p(s[r.value])
                        && forall k :: 0 <= k < r.value ==> !p(s[k])
    ensures r.None? ==> forall k :: 0 <= k < |s| ==> !p(s[k])
    decreases |s|
  {
    if s == [] then None
    else if p(s[0]) then Some(0)
    else match FirstIndex(s[1..], p)
      case None => None
      case Some(i) => Some(i + 1)
  }

  /** An index is the first one when `p` holds there and nowhere before. */
  lemma FirstIndexAt<T>(s: seq<T>, p: T -> bool, i: nat)
    requires i < |s| && p(s[i])
    requires forall k :: 0 <= k < i ==> !p(s[k])
    ensures FirstIndex(s, p) == Some(i)
  {
  }

  /** The first element kept is the first element of `s` satisfying `keep`. */
  lemma {:induction false} FilterHead<T(!new)>(s: seq<T>, keep: T -> bool)
    requires Filter(s, keep) != []
    ensures FirstIndex(s, keep).Some?
    ensures Filter(s, keep)[0] == s[FirstIndex(s, keep).value]
    decreases |s|
  {
    if keep(s[0]) {
      assert Filter(s, keep) == [s[0]] + Filter(s[1..], keep);
    } else {
      assert Filter(s, keep) == Filter(s[1..], keep);
      FilterHead(s[1..], keep);
      assert FirstIndex(s, keep) == Some(FirstIndex(s[1..], keep).value + 1);
    }
  }

  /** The elements of `s` whose key is `k`, in their original order. */
  function WithKey<T>(s: seq<T>, key: T -> int, k: int): seq<T>
    decreases |s|
  {
    if s == [] then []
    else (if key(s[0]) == k then [s[0]] else []) + WithKey(s[1..], key, k)
  }

  ghost predicate SortedBy<T>(s: seq<T>, key: T -> int) {
    forall i, j :: 0 <= i < j < |s| ==> key(s[i]) <= key(s[j])
  }

  /** Inserts `x` before the first element of `t` whose key is not smaller
      than its own. */
  function InsertByKey<T>(x: T, t: seq<T>, key: T -> int): (r: seq<T>)
    ensures |r| == |t| + 1
    decreases |t|
  {
    if t == [] then [x]
    else if key(x) <= key(t[0]) then [x] + t
    else [t[0]] + InsertByKey(x, t[1..], key)
  }

  lemma {:induction false} InsertByKeySorted<T>(x: T, t: seq<T>, key: T -> int)
    requires SortedBy(t, key)
    ensures SortedBy(InsertByKey(x, t, key), key)
    ensures var r := InsertByKey(x, t, key);
            key(r[0]) == key(x) || (t != [] && key(r[0]) == key(t[0]))
    decreases |t|
  {
    if t != [] && key(x) > key(t[0]) {
      var rest := InsertByKey(x, t[1..], key);
      SortedTail(t, key);
      InsertByKeySorted(x, t[1..], key);
      assert key(t[0]) <= key(rest[0]);
      assert forall j :: 0 <= j < |rest| ==> key(rest[0]) <= key(rest[j]);
      assert InsertByKey(x, t, key) == [t[0]] + rest;
    }
  }

  /** A stable sort by `key`: insertion of each element, front to back of the
      sorted remainder. */
  function SortByKey<T>(s: seq<T>, key: T -> int): (r: seq<T>)
    ensures SortedBy(r, key)
    ensures |r| == |s|
    decreases |s|
  {
    if s == [] then []
    else
      var rest := SortByKey(s[1..], key);
      InsertByKeySorted(s[0], rest, key);
      InsertByKey(s[0], rest, key)
  }

  lemma {:induction false} InsertByKeyPermutes<T>(x: T, t: seq<T>, key: T -> int)
    ensures multiset(InsertByKey(x, t, key)) == multiset([x] + t)
    decreases |t|
  {
    if t != [] && key(x) > key(t[0]) {
      InsertByKeyPermutes(x, t[1..], key);
      assert t == [t[0]] + t[1..];
      assert [x] + t == [x, t[0]] + t[1..];
    }
  }

  /** The sort rearranges its input without losing or adding elements. */
  lemma {:induction false} SortByKeyPermutes<T>(s: seq<T>, key: T -> int)
    ensures multiset(SortByKey(s, key)) == multiset(s)
    decreases |s|
  {
    if s != [] {
      SortByKeyPermutes(s[1..], key);
      InsertByKeyPermutes(s[0], SortByKey(s[1..], key), key);
      assert s == [s[0]] + s[1..];
    }
  }

  lemma WithKeyAppend<T>(a: seq<T>, b: seq<T>, key: T -> int, k: int)
    ensures WithKey(a + b, key, k) == WithKey(a, key, k) + WithKey(b, key, k)
    decreases |a|
  {
    if a != [] {
      var h := if key(a[0]) == k then [a[0]] else [];
      assert (a + b)[0] == a[0];
      assert (a + b)[1..] == a[1..] + b;
      WithKeyAppend(a[1..], b, key, k);
      assert WithKey(a + b, key, k) == h + WithKey(a[1..] + b, key, k);
      assert WithKey(a, key, k) == h + WithKey(a[1..], key, k);
      assert h + (WithKey(a[1..], key, k) + WithKey(b, key, k))
          == (h + WithKey(a[1..], key, k)) + WithKey(b, key, k);
    } else {
      assert a + b == b;
    }
  }

  /** Inserting keeps, for every key, the relative order of the elements
      carrying that key, with the inserted element ahead of its equals. */
  lemma {:induction false} InsertByKeyStable<T>(x: T, t: seq<T>, key: T -> int, k: int)
    ensures WithKey(InsertByKey(x, t, key), key, k) == WithKey([x] + t, key, k)
    decreases |t|
  {
    if t != [] && key(x) > key(t[0]) {
      var rest := InsertByKey(x, t[1..], key);
      InsertByKeyStable(x, t[1..], key, k);
      assert InsertByKey(x, t, key) == [t[0]] + rest;
      assert [t[0]] + t[1..] == t;
      WithKeyAppend([t[0]], rest, key, k);
      WithKeyAppend([x], t[1..], key, k);
      WithKeyAppend([t[0]], t[1..], key, k);
      WithKeyAppend([x], t, key, k);
      WithKeySingle(x, key, k);
      WithKeySingle(t[0], key, k);
      EmptyCommutes(WithKey([t[0]], key, k), WithKey([x], key, k), WithKey(t[1..], key, k));
    }
  }

  /** With one of `a`, `b` empty, they can be swapped in front of `w`. */
  lemma EmptyCommutes<T>(a: seq<T>, b: seq<T>, w: seq<T>)
    requires a == [] || b == []
    ensures a + (b + w) == b + (a + w)
  {
    if a == [] {
      assert a + (b + w) == b + w;
      assert a + w == w;
    } else {
      assert b + w == w;
      assert b + (a + w) == a + w;
    }
  }

  /** Every key's elements leave the sort in the order they entered it. */
  lemma {:induction false} SortByKeyStable<T>(s: seq<T>, key: T -> int, k: int)
    ensures WithKey(SortByKey(s, key), key, k) == WithKey(s, key, k)
    decreases |s|
  {
    if s != [] {
      SortByKeyStable(s[1..], key, k);
      InsertByKeyStable(s[0], SortByKey(s[1..], key), key, k);
      assert ([s[0]] + SortByKey(s[1..], key))[1..] == SortByKey(s[1..], key);
    }
  }

  /** Sortedness and per-key order determine a sequence: any stable sort of
      `s`, Python's included, produces the same sequence as `SortByKey`. */
  lemma {:induction false} SortedStableUnique<T>(a: seq<T>, b: seq<T>, key: T -> int)
    requires SortedBy(a, key) && SortedBy(b, key)
    requires forall k :: WithKey(a, key, k) == WithKey(b, key, k)
    ensures a == b
    decreases |a|
  {
    if a != [] {
      WithOwnKey(a, key);
    }
    if b != [] {
      WithOwnKey(b, key);
    }
    if a != [] && b != [] {
      var ka, kb := key(a[0]), key(b[0]);
      assert WithKey(a, key, kb) != [];
      WithKeyHasKey(a, key, kb);
      WithKeyHasKey(b, key, ka);
      assert WithKey(b, key, ka) != [];
      assert ka == kb;
      assert WithKey(a, key, ka)[0] == a[0];
      assert WithKey(b, key, ka)[0] == b[0];
      forall k
        ensures WithKey(a[1..], key, k) == WithKey(b[1..], key, k)
      {
        var A, B := WithKey(a[1..], key, k), WithKey(b[1..], key, k);
        if ka == k {
          assert WithKey(a, key, k) == [a[0]] + A;
          assert WithKey(b, key, k) == [b[0]] + B;
          assert ([a[0]] + A)[1..] == A;
          assert ([b[0]] + B)[1..] == B;
        } else {
          assert WithKey(a, key, k) == A;
          assert WithKey(b, key, k) == B;
        }
      }
      SortedTail(a, key);
      SortedTail(b, key);
      SortedStableUnique(a[1..], b[1..], key);
      assert a == [a[0]] + a[1..];
      assert b == [b[0]] + b[1..];
    }
  }

  lemma WithKeySingle<T>(y: T, key: T -> int, k: int)
    ensures WithKey([y], key, k) == if key(y) == k then [y] else []
  {
    assert [y][1..] == [];
  }

  lemma WithOwnKey<T>(s: seq<T>, key: T -> int)
    requires s != []
    ensures WithKey(s, key, key(s[0])) == [s[0]] + WithKey(s[1..], key, key(s[0]))
  {
  }

  lemma SortedTail<T>(s: seq<T>, key: T -> int)
    requires SortedBy(s, key) && s != []
    ensures SortedBy(s[1..], key)
  {
    assert forall i :: 0 <= i < |s[1..]| ==> s[1..][i] == s[i + 1];
  }

  /** In a sorted sequence, an element carrying key `k` exists only if the
      first element's key is at most `k`. */
  lemma {:induction false} WithKeyHasKey<T>(s: seq<T>, key: T -> int, k: int)
    requires SortedBy(s, key) && s != []
    requires WithKey(s, key, k) != []
    ensures key(s[0]) <= k
    decreases |s|
  {
    if key(s[0]) != k {
      assert WithKey(s[1..], key, k) != [];
      var t := s[1..];
      assert t != [];
      SortedTail(s, key);
      WithKeyHasKey(t, key, k);
      assert key(s[0]) <= key(t[0]);
    }
  }
}

=== FILE: text.dfy ===
/** Locating a separator character in a string, from either end. */
module Text {
  import opened Wrappers

  /** The position of the first `c` in `s`, if there is one. */
  function FirstIndexOf(s: string, c: char): (r: Option<nat>)
    ensures r.Some? ==> r.value < |s| && s[r.value] == c
                        && forall k :: 0 <= k < r.value ==> s[k] != c
    ensures r.None? ==> forall k :: 0 <= k < |s| ==> s[k] != c
    decreases |s|
  {
    if s == [] then None
    else if s[0] == c then Some(0)
    else match FirstIndexOf(s[1..], c)
      case None => None
      case Some(i) => Some(i + 1)
  }

  /** The position of the last `c` in `s`, if there is one. */
  function LastIndexOf(s: string, c: char): (r: Option<nat>)
    ensures r.Some? ==> r.value < |s| && s[r.value] == c
                        && forall k :: r.value < k < |s| ==> s[k] != c
    ensures r.None? ==> forall k :: 0 <= k < |s| ==> s[k] != c
    decreases |s|
  {
    if s == [] then None
    else if s[|s| - 1] == c then Some(|s| - 1)
    else LastIndexOf(s[..|s| - 1], c)
  }

  /** `s` cut at its last `c` into the text before and the text after it. */
  function SplitLast(s: string, c: char): Option<(string, string)>
  {
    match LastIndexOf(s, c)
    case None => None
    case Some(i) => Some((s[..i], s[i + 1..]))
  }

  /** Cutting at the last separator undoes joining with it, whatever the
      left part holds, provided the right part holds no separator. */
  lemma SplitLastOfJoin(a: string, c: char, b: string)
    requires forall k :: 0 <= k < |b| ==> b[k] != c
    ensures SplitLast(a + [c] + b, c) == Some((a, b))
  {
    var s := a + [c] + b;
    assert s[|a|] == c;
    var r := LastIndexOf(s, c);
    assert r.Some?;
    assert forall k :: |a| < k < |s| ==> s[k] == b[k - |a| - 1];
    assert r.value == |a|;
    assert s[..|a|] == a;
    assert s[|a| + 1..] == b;
  }

  /** Cutting at the first separator undoes joining with it, whatever the
      right part holds, provided the left part holds no separator. */
  lemma FirstIndexOfJoin(a: string, c: char, b: string)
    requires forall k :: 0 <= k < |a| ==> a[k] != c
    ensures FirstIndexOf(a + [c] + b, c) == Some(|a|)
  {
    var s := a + [c] + b;
    assert s[|a|] == c;
    var r := FirstIndexOf(s, c);
    assert forall k :: 0 <= k < |a| ==> s[k] == a[k];
    assert r.Some?;
  }
}

=== FILE: wrappers.dfy ===
/** Optional values and results with an error, used wherever the modelled
    program returns `None` or raises instead of producing a value. */
module Wrappers {

  datatype Option<+T> = None | Some(value: T)

  datatype Result<+T, +E> = Ok(value: T) | Err(error: E)
}
